=== FILE: README.md ===
# EduAvalia self-assessment form, modelled in Dafny

This project models the logic of a single-page questionnaire. Support assistants at CEC
(Centro de Educação e Cultura) fill it in to assess their own work. The form has three
personal fields, followed by four sections:

- three sections are answered on a 1–5 rating scale, each with a free comment;
- one section is answered in free text; one of its items takes a number.

The application does the following:

- shows a global progress percentage and, for each section, a completed-items count;
- validates the current step before moving to the next one;
- builds a structured payload from the answers and sends it to a text-generation service;
- renders the returned report line by line.

All of that logic is modelled here as immutable datatypes and pure functions. Two parts are
also written as loops: the progress calculation and its inner per-section loop.

## Modules

| file | module | contents |
|---|---|---|
| `options.dfy` | `Options` | `Option` and `Result` |
| `rounding.dfy` | `Rounding` | `Math.round(a / t * 100)` as exact round-half-up |
| `js_strings.dfy` | `JsStrings` | the JavaScript string operations listed below |
| `types.dfy` | `Types` | items, sections, personal info, form data, the rating scale and lookup by value |
| `form_rules.dfy` | `FormRules` | `calculateProgress`, `getSectionStats`, the validators, `validateCurrentStep` |
| `constants.dfy` | `Constants` | `INITIAL_DATA`, the shipped questionnaire, and facts about it |
| `editing.dfy` | `Editing` | the three edit handlers as functional updates |
| `widgets.dfy` | `Widgets` | `RatingInput` (emitted values, selection, caption); `SectionHeader` (percentage, `isComplete`) |
| `report.dfy` | `Report` | `promptData` of the report service; the empty-reply fallback and the uniform failure |
| `navigation.dfy` | `Navigation` | the component as a state machine: step, error flag, report status |
| `renderer.dfy` | `Renderer` | `SimpleMarkdownRenderer`: split into lines, classify each line |

`JsStrings` models these JavaScript operations:

- `length`, counted in UTF-16 code units;
- `trim`;
- `startsWith` and `endsWith`;
- `indexOf`;
- `replace` with a string pattern;
- the class `\s`.

Modelling choices:

- **Homogeneous sections.** A section's items are either all rating items or all text items
  (`SectionItems`). The case plays the part of the section's `type`. Every consumer in the
  source except the payload builder casts items by that type; the payload builder tests
  `'rating' in item`, which gives the same answer on homogeneous sections.
- **The shipped prose.** `Constants.SectionsWith` takes the questionnaire's prose (titles,
  descriptions, questions, hints) as a parameter. `Constants.ShippedText` holds the shipped
  wording. This keeps the facts about the instance independent of the long strings, so they are
  proved for any prose.
- **Inputs instead of effects.** The browser's `confirm` dialog is a boolean input. The report
  service's reply is an input (`Report.ServiceOutcome`). The current date is a parameter
  (`today`).

## Model

| member | source | states |
|---|---|---|
| Rounding.RoundPercent | App.tsx:90 | the result r is round-half-up of 100·a/t: 2t·r ≤ 200a + t < 2t·(r + 1) |
| Rounding.PercentBounds | App.tsx:90 | for 0 ≤ a ≤ t the percentage lies in 0..100 |
| Rounding.PercentFullIff | App.tsx:90 | for t < 200 the percentage is 100 exactly when a = t |
| Rounding.PercentOfWhole | App.tsx:90 | t of t is 100% |
| Rounding.NearlyCompleteRoundsToFull | App.tsx:90 | 199 of 200 already shows 100%, so the bound t < 200 is needed |
| JsStrings.IsWhitespace | App.tsx:20 | defined as: the ECMAScript white-space and line-terminator characters, the set both `\s` and `trim` (App.tsx:114) use |
| JsStrings.JsLength | App.tsx:84 | `length` is at least the number of code points and at most twice it, and 0 only for "" |
| JsStrings.EmojiCountTwice | App.tsx:84 | three emoji have `length` 6, so they pass the free-answer rule, while "abc" has `length` 3 |
| JsStrings.JsLengthAppend | App.tsx:84 | `length` adds up over concatenation |
| JsStrings.TrimStart | App.tsx:114 | the result is a suffix, only white space is removed, and it does not start with white space |
| JsStrings.TrimEnd | App.tsx:114 | the mirror image: a prefix, only white space removed, does not end with white space |
| JsStrings.Trim | App.tsx:114 | the trimmed string is empty or has non-white-space ends |
| JsStrings.TrimBlank | App.tsx:116 | trimming gives "" exactly for strings made only of white space |
| JsStrings.TrimLength | App.tsx:114 | trimming never increases `length` |
| JsStrings.TrimUnpadded | App.tsx:114 | a string with non-white-space ends is its own trim |
| JsStrings.StartsWith | App.tsx:16-20 | defined as: the pattern is a prefix of the string |
| JsStrings.EndsWith | App.tsx:18 | defined as: the pattern is a suffix of the string |
| JsStrings.IndexFrom | App.tsx:16 | the position found is an occurrence, and no earlier position is one |
| JsStrings.IndexOf | App.tsx:16-17 | defined as: the first occurrence from position 0, as `indexOf` finds it for `replace` |
| JsStrings.ReplaceFirst | App.tsx:16-17 | defined as: `replace` with a string pattern: the first occurrence, if any, is replaced |
| JsStrings.ReplaceLeadingPattern | App.tsx:16-17 | replacing a prefix the line starts with by "" removes exactly that prefix |
| JsStrings.ReplaceAbsentPattern | App.tsx:16-17 | a pattern that does not occur leaves the string unchanged |
| Types.ScaleIsOneToFive | types.ts:36-42 | the scale holds 1, 2, 3, 4, 5, in ascending order, each once |
| Types.FindEntry | components/FormComponents.tsx:54 | `find` succeeds exactly when some entry has the value, and returns the first such entry |
| Types.ScaleEntryOf | services/geminiService.ts:20 | the lookup succeeds exactly for a non-null rating in 1..5, and returns that rating's own entry |
| Types.LabelOf | services/geminiService.ts:20-24 | a label exists exactly for ratings 1..5 (none for null), and it is the scale's label for that value |
| FormRules.RatingCounted | App.tsx:77 | defined as: the item's rating is truthy (not null and not 0) |
| FormRules.TextCounted | App.tsx:78-85 | defined as: a numeric answer is non-empty, a free answer has untrimmed `length` above 5 |
| FormRules.PersonalAnswered | App.tsx:66-70 | at most 3 personal fields count, and all 3 exactly when none is empty |
| FormRules.RatingsAnswered | App.tsx:73-77 | at most one count per item, and every item counts exactly when every rating is truthy |
| FormRules.TextsAnswered | App.tsx:78-85 | at most one count per item, and every item counts exactly when each answer meets its rule (numeric: non-empty; free: untrimmed length > 5) |
| FormRules.SectionAnswered | App.tsx:73-87 | a section counts at most its size, and its size exactly when each of its items counts |
| FormRules.SectionsAnswered | App.tsx:73-88 | the count over all sections is at most the item total, and equals it exactly when every section is fully counted |
| FormRules.Total | App.tsx:63-75 | the total includes the 3 personal fields, so it is at least 3 |
| FormRules.Answered | App.tsx:62-88 | answered ≤ total, with equality exactly when all personal fields are non-empty and every item counts |
| FormRules.Progress | App.tsx:62-90 | progress lies in 0..100; below 200 fields it is 100 exactly when everything counts |
| FormRules.CountSection | App.tsx:74-87 | the inner loop visits every item and counts the section's contribution |
| FormRules.CalculateProgress | App.tsx:62-91 | the loop computes the percentage of answered fields as defined by the counting rules |
| FormRules.RatingsPresent | App.tsx:97 | the count of ratings that are not null never exceeds the number of items |
| FormRules.GetSectionStats | App.tsx:93-108 | completed ≤ total, and total is the section's item count |
| FormRules.RatingsPresentMatchAnswered | App.tsx:77-97 | without zero ratings, "not null" and "truthy" count the same ratings |
| FormRules.StatsMatchProgress | App.tsx:93-108 | without zero ratings, the header's completed count is the section's share of progress |
| FormRules.ZeroRatingSplitsStats | App.tsx:77-97 | a rating of 0 is complete for the header but not for progress |
| FormRules.IsRatingValid | App.tsx:111 | defined as: the rating is not null |
| FormRules.IsTextValid | App.tsx:112-115 | defined as: a numeric answer is non-empty; a free answer has trimmed `length` above 5 |
| FormRules.IsInfoValid | App.tsx:116 | defined as: the trimmed field is non-empty |
| FormRules.PersonalValid | App.tsx:120-122 | defined as: all three personal fields are valid |
| FormRules.SectionValid | App.tsx:124-131 | defined as: every item of the section is valid by the section's kind |
| FormRules.ValidateStep | App.tsx:118-133 | defined as: step 0 needs all three personal fields valid; step i needs every item of section i valid by its section's kind |
| FormRules.InfoValidIffNotBlank | App.tsx:116 | a personal field is valid exactly when it is not all white space |
| FormRules.ValidTextIsCounted | App.tsx:112-115 | a valid answer also counts for progress |
| FormRules.ValidStepIsCounted | App.tsx:118-133 | when a step validates, all of its fields count for progress (ratings assumed not 0) |
| FormRules.CountedButInvalid | App.tsx:84-116 | six spaces count for progress but are invalid; so does a blank name |
| FormRules.AllStepsValidMeansFullProgress | App.tsx:118-133 | if every step validates, progress is 100% |
| FormRules.FullProgress | App.tsx:90 | everything answered shows as 100% |
| FormRules.FullProgressDoesNotMeanValid | App.tsx:84-115 | a form can be at 100% while its last step fails validation |
| Constants.InitialData | constants.ts:3-134 | defined as: the shipped questionnaire with the shipped prose and the given date |
| Constants.SectionsWith | constants.ts:9-133 | defined as: the four shipped sections, their ids, kinds, input types and empty answers, with prose from the parameter |
| Constants.ShippedText | constants.ts:11-131 | defined as: the shipped titles, descriptions, questions and comment hints, looked up by section or item id |
| Constants.InitialShape | constants.ts:9-133 | four sections of 4, 5, 3 and 8 items, 23 fields in all |
| Constants.InitialKinds | constants.ts:14-122 | sections 1–3 hold ratings, section 4 holds text |
| Constants.InitiallyUnanswered | constants.ts:15-131 | every rating starts null, every comment and answer empty |
| Constants.OnlyHoursAreNumeric | constants.ts:124-131 | item 4.8 is the only numeric item |
| Constants.InitialIds | constants.ts:17-131 | the item ids of each section, in order |
| Constants.AscendingIdsDistinct | constants.ts:17-131 | ids whose (section digit, item digit) keys ascend are pairwise distinct |
| Constants.ShippedIdsUnique | constants.ts:17-131 | the shipped id lists are distinct within each section and together |
| Constants.IdsUnique | constants.ts:17-131 | item ids are unique within each section and across the whole form |
| Constants.InitialAnswersNothing | constants.ts:15-131 | no item of the fresh form counts for progress |
| Constants.InitialProgress | constants.ts:4-8 | only the date is filled in: 1 of 23 fields, shown as 4%, and step 0 does not validate |
| Constants.ShippedInitialProgress | constants.ts:3-134 | the shipped form has 23 fields, only the date is answered, and it shows 4% |
| Editing.SetPersonal | App.tsx:36-41 | the addressed personal field takes the value; the other fields and the sections are unchanged |
| Editing.SetPersonalLaws | App.tsx:36-41 | writing a field's current value is a no-op; of two writes to one field, the last wins |
| Editing.SetPersonalCounts | App.tsx:36-41 | the total is unchanged, and the answered count moves with the field's emptiness |
| Editing.EditRating | App.tsx:43-52 | only the addressed item's rating (or comment) changes; all other items, sections and fields stay |
| Editing.EditAnswer | App.tsx:54-60 | only the addressed item's answer changes; all other items, sections and fields stay |
| Editing.EditsIdempotent | App.tsx:43-60 | making the same edit twice is the same as making it once |
| Editing.EditAnswerCurrent | App.tsx:54-60 | writing back an item's current answer leaves the form unchanged |
| Editing.RatingsAnsweredUpdate | App.tsx:73-77 | replacing one rating item moves the section count by that item's change of status |
| Editing.TextsAnsweredUpdate | App.tsx:78-85 | replacing one text item moves the section count by that item's change of status |
| Editing.SectionsUpdate | App.tsx:73-88 | replacing one section by one of equal size keeps the total and moves the count by the difference |
| Editing.EditRatingCounts | App.tsx:43-52 | a rating edit keeps the total and moves the answered count by the item's change of status |
| Editing.EditAnswerCounts | App.tsx:54-60 | an answer edit keeps the total and moves the answered count by the item's change of status |
| Editing.CommentKeepsProgress | App.tsx:43-52 | editing a comment never changes progress |
| Editing.FirstRatingCountsOnce | App.tsx:48 | rating an unrated item on the scale adds exactly one answered field |
| Widgets.EmittedValue | components/FormComponents.tsx:27-33 | every button emits a value in 1..5 |
| Widgets.EmittedValuesAreTheScale | components/FormComponents.tsx:27-33 | the values the buttons can emit are exactly 1..5 |
| Widgets.SelectedButtons | components/FormComponents.tsx:28 | no button is selected for null or an off-scale value; otherwise exactly the value's own button is |
| Widgets.AtMostOneSelected | components/FormComponents.tsx:28 | at most one button is selected |
| Widgets.IsComplete | components/FormComponents.tsx:122 | defined as: the section percentage is exactly 100 (never for an empty section's NaN) |
| Widgets.CaptionOf | components/FormComponents.tsx:54 | null and 0 show the placeholder; a value in 1..5 shows its scale label; any other value shows nothing |
| Widgets.SectionPercent | components/FormComponents.tsx:121 | an empty section gives NaN; otherwise round-half-up of 100·completed/total, in 0..100 when completed ≤ total |
| Widgets.CompleteIffAll | components/FormComponents.tsx:121-122 | below 200 items the check mark shows exactly when completed = total > 0 |
| Widgets.HeaderCompleteIffCounted | components/FormComponents.tsx:121-122 | for a section's statistics the check mark shows exactly when the section is non-empty and fully counted for progress |
| Report.EntriesOf | services/geminiService.ts:17-33 | one entry per item; a rated entry exactly for a rating item, carrying the label of its own rating |
| Report.BuildPayload | services/geminiService.ts:10-35 | fixed institution; personal fields copied; one entry per section in order with its title; one item per item, shaped by kind; every label matches its rating (questions and answers: see PayloadRoundTrip) |
| Report.RestoreSection | services/geminiService.ts:17-33 | a section's entries carry every question, rating, comment and answer of the section, item by item |
| Report.PayloadRoundTrip | services/geminiService.ts:10-35 | writing the payload back into any copy of the questionnaire gives back the original form: every question, rating, comment, answer and personal field is carried, in order |
| Report.ReportText | services/geminiService.ts:58-67 | failure gives the one error message; otherwise the text is non-empty and is the reply unless it is the fallback |
| Report.ReplyPassesThrough | services/geminiService.ts:63 | a non-empty reply passes unchanged; a missing or empty one becomes the fallback |
| Report.FailuresUniform | services/geminiService.ts:64-66 | all failures look the same, whatever their cause |
| Navigation.Next | App.tsx:135-151 | the step advances by one exactly when the step is valid or the user confirms; otherwise it stays and the error flag is raised |
| Navigation.Prev | App.tsx:153-157 | the step goes back by one and the error flag is cleared |
| Navigation.Submit | App.tsx:159-177 | below 100% the error flag is raised, and a declined confirmation sends nothing; otherwise the status becomes loading and the form's payload is sent |
| Navigation.Settle | App.tsx:176-183 | a reply leads to success with non-empty report text; a failure leads to the error status |
| Navigation.Back | App.tsx:206 | "Voltar" sets the status to idle and keeps the form and the step |
| Navigation.Enabled | App.tsx:396-423 | defined as: the report page offers only "back"; the form offers the displayed step's inputs, "previous" off step 0, "next" before the last step, "generate" on it unless loading; a reply arrives only while loading |
| Navigation.Step | App.tsx:396-423 | an event the page does not offer changes nothing; every transition keeps the step within 0..sections and every rating null or in 1..5, and changes answers only, never the questionnaire |
| Navigation.Initial | App.tsx:28-32 | defined as: `INITIAL_DATA`, step 0, errors hidden, status idle, empty report |
| Navigation.InitialInv | App.tsx:28-32 | the mounted state is on a form page and every rating is null or on the scale |
| Navigation.EditRatingKeepsScale | App.tsx:347-349 | picking a scale value or typing a comment keeps every rating in 1..5 or null |
| Navigation.EditAnswerKeepsScale | App.tsx:54-60 | typing an answer keeps every rating in 1..5 or null |
| Navigation.EditRatingSame | App.tsx:43-52 | a rating or comment edit keeps every section's id, title, description, item ids, questions and hints |
| Navigation.EditAnswerSame | App.tsx:54-60 | an answer edit keeps every section's id, title, description, item ids, questions, descriptions and input types |
| Navigation.RunKeepsInv | App.tsx:396-423 | any sequence of events from a state with the invariant keeps it |
| Navigation.Reachable | App.tsx:28-32 | every state reachable from the mounted one has its step on a page and every rating null or in 1..5 |
| Navigation.InvNoZeroRatings | App.tsx:347-349 | no reachable state has a rating of 0 |
| Navigation.InvStatsAgree | App.tsx:314-327 | in a reachable state the section header's count is the section's share of progress |
| Navigation.InvValidIsCounted | App.tsx:118-133 | in a reachable state a valid step has all of its fields counted |
| Navigation.InvAllValidIsFull | App.tsx:118-160 | in a reachable state where every step validates, progress is 100%, so submitting asks for no confirmation |
| Navigation.NavigationBounded | App.tsx:396-419 | "previous" does nothing on step 0; "next" is not offered on the last step |
| Navigation.SubmitOnlyFromLastPage | App.tsx:412-423 | a report is requested only from the last step, and neither while one is loading nor from the report page |
| Navigation.CompleteFormRoundTrip | App.tsx:159-210 | a complete form goes to loading, then success with the reply, then back to the same form and step |
| Renderer.SplitLines | App.tsx:15 | no piece contains a line feed |
| Renderer.SplitCount | App.tsx:15 | n line feeds give n + 1 lines |
| Renderer.JoinSplit | App.tsx:15 | joining the pieces with line feeds gives back the text |
| Renderer.SplitJoin | App.tsx:15 | splitting joined feed-free lines gives back the lines |
| Renderer.RemoveDoubleStars | App.tsx:18 | no "**" remains and every character that is not a star is kept, in order |
| Renderer.CollapseRuns | App.tsx:18 | defined as: each maximal run of k stars becomes k mod 2 stars, every other character stays |
| Renderer.RemoveStarRun | App.tsx:18 | a run of k stars before a non-star leaves k mod 2 stars |
| Renderer.RemoveDoubleStarsByRuns | App.tsx:18 | the left-to-right removal equals the run-by-run account, so a lone star survives and "***" leaves one |
| Renderer.RemoveDoubleStarsAbsent | App.tsx:18 | a line without "**" is unchanged |
| Renderer.RemoveDoubleStarsIdempotent | App.tsx:18 | removing "**" twice is removing it once |
| Renderer.StripBullet | App.tsx:20 | the line is unchanged unless it starts with "-" or "*" followed by white space; then the result is what follows the marker and the whole white-space run after it |
| Renderer.LooksLikeBullet | App.tsx:20 | defined as: the trimmed line starts with "- " or "* " |
| Renderer.ClassifyLine | App.tsx:16-21 | rules apply in order: "## " gives h2 without the marker; "### " gives h3; `**…**` gives bold without "**"; a trimmed bullet gives a stripped paragraph; anything else stays as it is |
| Renderer.Render | App.tsx:12-25 | one block per line: line feeds + 1 blocks |
| Renderer.HeadingRoundTrip | App.tsx:16-17 | "## t" renders as h2 t and "### t" as h3 t |
| Renderer.StrongRoundTrip | App.tsx:18 | "**t**" with a star-free t renders as bold t |
| Renderer.BulletStripped | App.tsx:20 | "- t" renders as a paragraph t |
| Renderer.IndentedBulletVerbatim | App.tsx:20 | an indented bullet is a bullet paragraph that keeps its indentation and marker |
| Renderer.TwoLines | App.tsx:15 | two feed-free lines joined by a line feed split back into the two |
| Renderer.RenderTwoLines | App.tsx:15-21 | a two-line text gives the blocks of its two lines |
| Renderer.RenderHeadingThenBullet | App.tsx:15-20 | "## t", a line feed, then "- u" renders as [h2 t, paragraph u] |
| Renderer.RenderEmpty | App.tsx:15-21 | an empty report is one empty paragraph |

## Left out

- JSX and CSS rendering, icons, `window.scrollTo`, `window.print` and the `setTimeout` delays.
  These are presentation and browser effects, except for the delay in `handleNext`, described
  in the next line.
- Navigation.Next: models the confirmation of an invalid step as part of the same transition as
  the press. In App.tsx:139-145 the `confirm` and the step increment run in a 100 ms timer.
  Pressing "Próximo" twice inside that window schedules two dialogs, and confirming both
  advances two steps. From the second-to-last page this passes the last page, and the page then
  reads a section that does not exist (App.tsx:95, 316-317). So the step bound that
  `Navigation.Reachable` and `Navigation.RunKeepsInv` prove holds for presses whose confirmation
  completes before the next press, not for overlapping ones.
- Navigation.Reachable: covers the sequences of atomic events above. A second "Próximo" pressed
  while the first one's confirmation is still pending is outside it (see the previous line).
- The `confirm` dialogs are booleans in `Navigation.Next`, `Navigation.Submit` and the
  `PressNext`/`PressSubmit` events.
- The report service call:
  - The client, API key, model name and prompt prose (services/geminiService.ts:4-7, 37-62) are
    an opaque network call.
  - Its reply is the input `Report.ServiceOutcome`.
  - `JSON.stringify` of the payload is not modelled; the payload is a datatype.
- `new Date().toISOString()` (constants.ts:6) is the parameter `today`, which may be any string.
- `Math.round` on floating point is modelled as exact rational round-half-up. Floating-point
  division could differ from it at an exact .5 boundary.
- The in-place mutation in `handleRatingItemChange`/`handleTextItemChange` (App.tsx:44-57)
  writes into an object that the previous state shares. It is modelled as a functional update
  of the current state.
- Calling an edit handler on an item of the other kind:
  - JavaScript would add the field to the object.
  - The model's `requires` (`RatingAddress`/`TextAddress`) excludes it, because the page only
    wires rating inputs to rating sections and text inputs to text sections.
- Mixed sections cannot be represented (see "Homogeneous sections" above). Because of this,
  `Report.BuildPayload`'s test `'rating' in item` is the same as the section's kind.
- `handleRatingItemChange` accepts `value: any` for a rating. The model takes an integer, and
  the page only passes a button's scale value.
- The report state after a rejected `await` is as the code leaves it:
  - the status becomes error;
  - no message is shown and no content changes;
  - the logged error is not modelled.
- Two behaviours worth knowing, modelled as the code has them:
  - "Voltar ao Formulário" (App.tsx:206) only sets the status to idle and keeps the step
    (`Navigation.Back`).
  - An empty report line renders as an empty paragraph (`Renderer.RenderEmpty`).
- Step validity and progress use different rules:
  - Progress counts untrimmed lengths and truthy ratings; validation trims and checks for
    non-null.
  - So 100% progress does not imply that every step validates. The model proves this
    (`FormRules.FullProgressDoesNotMeanValid`) rather than correcting it, because the
    application never relies on the converse.
- FormRules.ValidStepIsCounted: assumes no rating is 0. A 0 rating is valid but falsy. The page
  cannot produce one, which `Navigation.InvNoZeroRatings` proves for every reachable state.

=== FILE: constants.dfy ===
/**
 * The questionnaire the application ships with: four sections of 4, 5, 3 and 8
 * items, every answer empty, and today's date pre-filled.
 */
module Constants {
  import opened Options
  import opened Types
  import opened FormRules

  /**
   * `INITIAL_DATA`. The date is the current day as an ISO string, which the model
   * takes as a parameter.
   */
  function InitialData(today: string): FormData {
    InitialDataWith(today, ShippedText)
  }

  /** Which piece of prose of a section or an item. */
  datatype Prose = Title | About | Question | Hint

  /**
   * The shipped questionnaire with its prose (titles, descriptions, questions and
   * comment hints) looked up through `text`; the facts below hold whatever the prose.
   */
  function InitialDataWith(today: string, text: (string, Prose) -> string): FormData {
    FormData(PersonalInfo("", today, ""), SectionsWith(text))
  }

  function SectionsWith(text: (string, Prose) -> string): seq<Section> {
    [
      Section("s1", text("s1", Title), text("s1", About),
        RatingItems([
          RatingItem("1.1", text("1.1", Question), None, "", Some(text("1.1", Hint))),
          RatingItem("1.2", text("1.2", Question), None, "", Some(text("1.2", Hint))),
          RatingItem("1.3", text("1.3", Question), None, "", Some(text("1.3", Hint))),
          RatingItem("1.5", text("1.5", Question), None, "", Some(text("1.5", Hint)))
        ])),
      Section("s2", text("s2", Title), text("s2", About),
        RatingItems([
          RatingItem("2.1", text("2.1", Question), None, "", Some(text("2.1", Hint))),
          RatingItem("2.2", text("2.2", Question), None, "", Some(text("2.2", Hint))),
          RatingItem("2.3", text("2.3", Question), None, "", Some(text("2.3", Hint))),
          RatingItem("2.4", text("2.4", Question), None, "", Some(text("2.4", Hint))),
          RatingItem("2.5", text("2.5", Question), None, "", Some(text("2.5", Hint)))
        ])),
      Section("s3", text("s3", Title), text("s3", About),
        RatingItems([
          RatingItem("3.1", text("3.1", Question), None, "", Some(text("3.1", Hint))),
          RatingItem("3.2", text("3.2", Question), None, "", Some(text("3.2", Hint))),
          RatingItem("3.3", text("3.3", Question), None, "", Some(text("3.3", Hint)))
        ])),
      Section("s4", text("s4", Title), text("s4", About),
        TextItems([
          TextItem("4.1", text("4.1", Question), Some(text("4.1", About)), "", None),
          TextItem("4.2", text("4.2", Question), Some(text("4.2", About)), "", None),
          TextItem("4.3", text("4.3", Question), Some(text("4.3", About)), "", None),
          TextItem("4.4", text("4.4", Question), Some(text("4.4", About)), "", None),
          TextItem("4.5", text("4.5", Question), Some(text("4.5", About)), "", None),
          TextItem("4.6", text("4.6", Question), Some(text("4.6", About)), "", None),
          TextItem("4.7", text("4.7", Question), Some(text("4.7", About)), "", None),
          TextItem("4.8", text("4.8", Question), Some(text("4.8", About)), "", Some(NumberInput))
        ]))
    ]
  }

  /** The prose of `INITIAL_DATA`, by section or item id. */
  function ShippedText(id: string, part: Prose): string {
    match (id, part)
    case ("s1", Title) =>
      "Seção 1: Conhecimento e Habilidade"
    case ("s1", About) =>
      "Esta seção avalia seu repertório técnico e prático, essencial para oferecer suporte personalizado e eficaz. Reflita sobre como seu conhecimento impacta o dia a dia dos alunos."
    case ("1.1", Question) =>
      "1.1 Entendimento sobre as necessidades específicas dos alunos que você apoia (ex: TEA, deficiência intelectual, deficiência física, etc.)."
    case ("1.1", Hint) =>
      "Descreva como você aplica esse conhecimento em situações reais, como adaptar atividades para o aluno que auxiliou."
    case ("1.2", Question) =>
      "1.2 Habilidades em implementar estratégias de apoio personalizadas."
    case ("1.2", Hint) =>
      "Forneça um exemplo de uma estratégia que você criou ou adaptou, e o resultado observado no aluno."
    case ("1.3", Question) =>
      "1.3 Proficiência no uso de tecnologias assistivas e materiais pedagógicos adaptados."
    case ("1.3", Hint) =>
      "Mencione uma ferramenta específica (ex: tablet com apps acessíveis) e como ela melhorou o aprendizado do aluno."
    case ("1.5", Question) =>
      "1.5 Conhecimento sobre planos de desenvolvimento individualizado (PDIs)"
    case ("1.5", Hint) =>
      "Explique como você contribui para a elaboração ou implementação de um PDI, com um exemplo prático."
    case ("s2", Title) =>
      "Seção 2: Desempenho e Aplicação"
    case ("s2", About) =>
      "Foque em como você aplica seu conhecimento no cotidiano escolar, promovendo o progresso dos alunos. Celebre sucessos e identifique o que pode ser otimizado."
    case ("2.1", Question) =>
      "2.1 Medição do sucesso em promover a autonomia do aluno."
    case ("2.1", Hint) =>
      "Descreva métricas ou observações (ex: aluno passou a realizar tarefas sozinho) que indicam avanço na autonomia."
    case ("2.2", Question) =>
      "2.2 Aplicação de estratégias de apoio para superar desafios específicos do aluno."
    case ("2.2", Hint) =>
      "Relate uma situação recente onde uma estratégia sua resolveu um desafio, como mobilidade ou foco em aula."
    case ("2.3", Question) =>
      "2.3 Capacidade de gerenciar e mediar interações sociais do aluno com colegas e professores."
    case ("2.3", Hint) =>
      "Forneça um exemplo de mediação que facilitou a inclusão social, e o impacto percebido."
    case ("2.4", Question) =>
      "2.4 Lidando com comportamentos desafiadores e estratégias utilizadas."
    case ("2.4", Hint) =>
      "Descreva uma estratégia (ex: reforço positivo) aplicada em um comportamento desafiador e seu resultado."
    case ("2.5", Question) =>
      "2.5 Proatividade em antecipar e atender às necessidades dos alunos."
    case ("2.5", Hint) =>
      "Cite uma ação proativa que você realizou e como ela beneficiou o aluno."
    case ("s3", Title) =>
      "Seção 3: Colaboração e Comunicação"
    case ("s3", About) =>
      "Esta área destaca sua integração com a equipe e famílias, chave para um suporte holístico."
    case ("3.1", Question) =>
      "3.1 Eficácia na comunicação e colaboração com a equipe pedagógica (professores, coordenadores, psicólogos, etc.)."
    case ("3.1", Hint) =>
      "Descreva uma colaboração recente e como ela contribuiu para o aluno."
    case ("3.2", Question) =>
      "3.2 Integração e trabalho com o(s) professor(es) da turma."
    case ("3.2", Hint) =>
      "Relate como é a integração do trabalho."
    case ("3.3", Question) =>
      "3.3 Receptividade a feedback e sugestões da equipe e dos pais."
    case ("3.3", Hint) =>
      "Descreva como você incorporou um feedback recente e o impacto positivo resultante."
    case ("s4", Title) =>
      "Seção 4: Desenvolvimento Profissional e Auto-Reflexão"
    case ("s4", About) =>
      "Reflita sobre seu crescimento pessoal e motivações. Use essa seção para planejar seu futuro profissional."
    case ("4.1", Question) =>
      "4.1 Principal motivação para trabalhar como auxiliar de apoio a alunos com necessidades especiais."
    case ("4.1", About) =>
      "Compartilhe sua motivação principal e como ela influencia seu dia a dia."
    case ("4.2", Question) =>
      "4.2 Maior dificuldade enfrentada em 2025:"
    case ("4.2", About) =>
      "Descreva o maior desafio que você enfrentou e como tentou superá-lo."
    case ("4.3", Question) =>
      "4.3 Maior conquista/momento de êxito:"
    case ("4.3", About) =>
      "Compartilhe um momento de grande sucesso ou uma conquista significativa que você teve em sua prática."
    case ("4.4", Question) =>
      "4.4 Aprendizado pessoal mais significativo:"
    case ("4.4", About) =>
      "Qual foi o aprendizado mais importante que você teve sobre si mesmo(a) em 2025?"
    case ("4.5", Question) =>
      "4.5 O que precisa mudar em 2026?"
    case ("4.5", About) =>
      "Com base em sua autoavaliação, o que você priorizaria para melhorar em sua prática em 2026?"
    case ("4.6", Question) =>
      "4.6 Formação recebida em 2025:"
    case ("4.6", About) =>
      "Liste as formações e capacitações que você participou em 2025."
    case ("4.7", Question) =>
      "4.7 Formação desejada para 2026:"
    case ("4.7", About) =>
      "Quais temas de formação seriam mais relevantes para você em 2026?"
    case ("4.8", Question) =>
      "4.8 Tempo disponível para formação (Horas/mês):"
    case ("4.8", About) =>
      "Quantas horas mensais você estaria disposto(a) a dedicar à formação continuada em 2026?"
    case _ => ""
  }

  /** Four sections of 4, 5, 3 and 8 items: 23 fields with the personal ones. */
  lemma InitialShape(today: string, text: (string, Prose) -> string)
    ensures var f := InitialDataWith(today, text);
      && |f.sections| == 4
      && f.sections[0].Size() == 4 && f.sections[1].Size() == 5
      && f.sections[2].Size() == 3 && f.sections[3].Size() == 8
      && Total(f) == 23
  {
    var ss := SectionsWith(text);
    assert SectionsSize(ss[..0]) == 0 by { assert ss[..0] == []; }
    assert SectionsSize(ss[..1]) == 4 by { assert ss[..1][..0] == ss[..0]; }
    assert SectionsSize(ss[..2]) == 9 by { assert ss[..2][..1] == ss[..1]; }
    assert SectionsSize(ss[..3]) == 12 by { assert ss[..3][..2] == ss[..2]; }
    assert SectionsSize(ss[..4]) == 20 by { assert ss[..4][..3] == ss[..3]; }
    assert ss[..4] == ss;
  }

  /** The first three sections hold ratings and the fourth holds text answers. */
  lemma InitialKinds(text: (string, Prose) -> string)
    ensures var ss := SectionsWith(text);
      && ss[0].items.RatingItems? && ss[1].items.RatingItems?
      && ss[2].items.RatingItems? && ss[3].items.TextItems?
  {
  }

  /** Every rating starts `null`, every comment and every answer empty. */
  lemma InitiallyUnanswered(text: (string, Prose) -> string)
    ensures var ss := SectionsWith(text);
      forall i | 0 <= i < |ss| :: match ss[i].items
        case RatingItems(rs) => forall k | 0 <= k < |rs| :: rs[k].rating == None && rs[k].comment == ""
        case TextItems(ts) => forall k | 0 <= k < |ts| :: ts[k].answer == ""
  {
  }

  /** Item 4.8 is the only numeric one. */
  lemma OnlyHoursAreNumeric(text: (string, Prose) -> string)
    ensures var ts := SectionsWith(text)[3].items.texts;
      forall k | 0 <= k < |ts| :: IsNumeric(ts[k]) <==> ts[k].id == "4.8"
  {
  }

  /** The ordering key of an id "s.i": its section digit, then its item digit. */
  function IdKey(id: string): int {
    if |id| >= 3 then (id[0] as int) * 0x11_0000 + id[2] as int else -1
  }

  predicate KeysAscend(ids: seq<string>) {
    forall i | 0 <= i < |ids| - 1 :: IdKey(ids[i]) < IdKey(ids[i + 1])
  }

  lemma {:induction false} KeysAscendOrdered(ids: seq<string>, i: int, j: int)
    requires KeysAscend(ids) && 0 <= i < j < |ids|
    ensures IdKey(ids[i]) < IdKey(ids[j])
    decreases j - i
  {
    if j > i + 1 {
      KeysAscendOrdered(ids, i + 1, j);
    }
  }

  /** Ids whose keys ascend are distinct. */
  lemma AscendingIdsDistinct(ids: seq<string>)
    requires KeysAscend(ids)
    ensures Distinct(ids)
  {
    forall i, j | 0 <= i < j < |ids|
      ensures ids[i] != ids[j]
    {
      KeysAscendOrdered(ids, i, j);
    }
  }

  lemma InitialIds1(text: (string, Prose) -> string)
    ensures SectionsWith(text)[0].ItemIds() == ["1.1", "1.2", "1.3", "1.5"]
  {
  }

  lemma InitialIds2(text: (string, Prose) -> string)
    ensures SectionsWith(text)[1].ItemIds() == ["2.1", "2.2", "2.3", "2.4", "2.5"]
  {
  }

  lemma InitialIds3(text: (string, Prose) -> string)
    ensures SectionsWith(text)[2].ItemIds() == ["3.1", "3.2", "3.3"]
  {
  }

  lemma InitialIds4(text: (string, Prose) -> string)
    ensures SectionsWith(text)[3].ItemIds() == ["4.1", "4.2", "4.3", "4.4", "4.5", "4.6", "4.7", "4.8"]
  {
  }

  /** The item ids of each section, in order. */
  lemma InitialIds(text: (string, Prose) -> string)
    ensures var ss := SectionsWith(text);
      && ss[0].ItemIds() == ["1.1", "1.2", "1.3", "1.5"]
      && ss[1].ItemIds() == ["2.1", "2.2", "2.3", "2.4", "2.5"]
      && ss[2].ItemIds() == ["3.1", "3.2", "3.3"]
      && ss[3].ItemIds() == ["4.1", "4.2", "4.3", "4.4", "4.5", "4.6", "4.7", "4.8"]
  {
    InitialIds1(text);
    InitialIds2(text);
    InitialIds3(text);
    InitialIds4(text);
  }

  lemma FormItemIdsCons(ss: seq<Section>)
    requires ss != []
    ensures FormItemIds(ss) == ss[0].ItemIds() + FormItemIds(ss[1..])
  {
  }

  lemma FourSectionIds(ss: seq<Section>)
    requires |ss| == 4
    ensures FormItemIds(ss) == ss[0].ItemIds() + ss[1].ItemIds() + ss[2].ItemIds() + ss[3].ItemIds()
  {
    var s1, s2, s3 := ss[1..], ss[2..], ss[3..];
    assert s1[0] == ss[1] && s2[0] == ss[2] && s3[0] == ss[3];
    assert s1[1..] == s2 && s2[1..] == s3 && s3[1..] == [];
    var a, b, c, d := ss[0].ItemIds(), ss[1].ItemIds(), ss[2].ItemIds(), ss[3].ItemIds();
    FormItemIdsCons(s3);
    FormItemIdsCons(s2);
    FormItemIdsCons(s1);
    FormItemIdsCons(ss);
    assert FormItemIds(s3) == d;
    assert FormItemIds(ss) == a + (b + (c + d));
  }

  /** Two ascending runs, the second starting above the end of the first, ascend together. */
  lemma KeysAscendJoin(a: seq<string>, b: seq<string>)
    requires KeysAscend(a) && KeysAscend(b) && a != [] && b != []
    requires IdKey(a[|a| - 1]) < IdKey(b[0])
    ensures KeysAscend(a + b)
  {
    var ab := a + b;
    forall i | 0 <= i < |ab| - 1
      ensures IdKey(ab[i]) < IdKey(ab[i + 1])
    {
      if i < |a| - 1 {
        assert ab[i] == a[i] && ab[i + 1] == a[i + 1];
      } else if i == |a| - 1 {
        assert ab[i] == a[i] && ab[i + 1] == b[0];
      } else {
        assert ab[i] == b[i - |a|] && ab[i + 1] == b[i + 1 - |a|];
      }
    }
  }

  /** Four sections with the shipped ids have unique ids. */
  lemma ShippedIdsUnique(a: seq<string>, b: seq<string>, c: seq<string>, d: seq<string>)
    requires a == ["1.1", "1.2", "1.3", "1.5"]
    requires b == ["2.1", "2.2", "2.3", "2.4", "2.5"]
    requires c == ["3.1", "3.2", "3.3"]
    requires d == ["4.1", "4.2", "4.3", "4.4", "4.5", "4.6", "4.7", "4.8"]
    ensures Distinct(a) && Distinct(b) && Distinct(c) && Distinct(d)
    ensures Distinct(a + b + c + d)
  {
    assert KeysAscend(a) && KeysAscend(b) && KeysAscend(c) && KeysAscend(d);
    AscendingIdsDistinct(a);
    AscendingIdsDistinct(b);
    AscendingIdsDistinct(c);
    AscendingIdsDistinct(d);
    KeysAscendJoin(a, b);
    KeysAscendJoin(a + b, c);
    KeysAscendJoin(a + b + c, d);
    AscendingIdsDistinct(a + b + c + d);
  }

  /** Item ids are unique within each section and across the form. */
  lemma IdsUnique(text: (string, Prose) -> string)
    ensures var ss := SectionsWith(text);
      && (forall i | 0 <= i < |ss| :: Distinct(ss[i].ItemIds()))
      && Distinct(FormItemIds(ss))
  {
    var ss := SectionsWith(text);
    InitialIds(text);
    InitialShape("", text);
    ShippedIdsUnique(ss[0].ItemIds(), ss[1].ItemIds(), ss[2].ItemIds(), ss[3].ItemIds());
    FourSectionIds(ss);
  }

  /** Ratings that are all `null` count for nothing. */
  lemma {:induction false} NullRatingsCountNothing(rs: seq<RatingItem>)
    requires forall k | 0 <= k < |rs| :: rs[k].rating == None
    ensures RatingsAnswered(rs) == 0
  {
    if rs != [] {
      NullRatingsCountNothing(rs[..|rs| - 1]);
    }
  }

  /** Answers that are all empty count for nothing. */
  lemma {:induction false} EmptyAnswersCountNothing(ts: seq<TextItem>)
    requires forall k | 0 <= k < |ts| :: ts[k].answer == ""
    ensures TextsAnswered(ts) == 0
  {
    if ts != [] {
      EmptyAnswersCountNothing(ts[..|ts| - 1]);
    }
  }

  /** Only the date is filled in: 1 of 23 fields, shown as 4%, and the first step does not validate. */
  lemma InitialProgress(today: string, text: (string, Prose) -> string)
    requires today != ""
    ensures var f := InitialDataWith(today, text);
      && Answered(f) == 1
      && Progress(f) == 4
      && !ValidateStep(f, 0)
  {
    InitialShape(today, text);
    InitialAnswersNothing(text);
  }

  /** The form as shipped: 23 fields, of which only the date is filled in, shown as 4%. */
  lemma ShippedInitialProgress(today: string)
    requires today != ""
    ensures Total(InitialData(today)) == 23 && Answered(InitialData(today)) == 1
    ensures Progress(InitialData(today)) == 4
  {
    InitialShape(today, ShippedText);
    InitialProgress(today, ShippedText);
  }

  /** Sections that all count for nothing count for nothing together. */
  lemma {:induction false} UnansweredSections(ss: seq<Section>)
    requires forall i | 0 <= i < |ss| :: SectionAnswered(ss[i]) == 0
    ensures SectionsAnswered(ss) == 0
  {
    if ss != [] {
      var init := ss[..|ss| - 1];
      assert forall i | 0 <= i < |init| :: init[i] == ss[i];
      UnansweredSections(init);
    }
  }

  /** A section whose ratings are all `null` and whose answers are all empty counts for nothing. */
  lemma BlankSection(s: Section)
    requires match s.items
      case RatingItems(rs) => forall k | 0 <= k < |rs| :: rs[k].rating == None
      case TextItems(ts) => forall k | 0 <= k < |ts| :: ts[k].answer == ""
    ensures SectionAnswered(s) == 0
  {
    match s.items
    case RatingItems(rs) => NullRatingsCountNothing(rs);
    case TextItems(ts) => EmptyAnswersCountNothing(ts);
  }

  /** No item of the shipped questionnaire counts for progress at first. */
  lemma InitialAnswersNothing(text: (string, Prose) -> string)
    ensures SectionsAnswered(SectionsWith(text)) == 0
  {
    InitiallyUnanswered(text);
    var ss := SectionsWith(text);
    forall i | 0 <= i < |ss|
      ensures SectionAnswered(ss[i]) == 0
    {
      BlankSection(ss[i]);
    }
    UnansweredSections(ss);
  }
}

=== FILE: editing.dfy ===
/**
 * The three edit handlers of the application component: a personal field, a
 * rating item's rating or comment, and a text item's answer. Each is modelled as
 * a functional update of the form state that touches exactly one field.
 */
module Editing {
  import opened Options
  import opened Types
  import opened FormRules

  // ---------------------------------------------------------------------------
  // `handlePersonalInfoChange`
  // ---------------------------------------------------------------------------

  /** The keys of `PersonalInfo`. */
  datatype PersonalField = Name | Date | StudentDisorder

  function FieldOf(p: PersonalInfo, field: PersonalField): string {
    match field
    case Name => p.name
    case Date => p.date
    case StudentDisorder => p.studentDisorder
  }

  /** `handlePersonalInfoChange(field, value)`: the addressed field takes the value, nothing else moves. */
  function SetPersonal(f: FormData, field: PersonalField, value: string): (r: FormData)
    ensures r.sections == f.sections
    ensures FieldOf(r.personalInfo, field) == value
    ensures forall g: PersonalField | g != field :: FieldOf(r.personalInfo, g) == FieldOf(f.personalInfo, g)
  {
    var p := f.personalInfo;
    var q := match field
      case Name => p.(name := value)
      case Date => p.(date := value)
      case StudentDisorder => p.(studentDisorder := value);
    f.(personalInfo := q)
  }

  /** Two personal infos that agree on every field are the same. */
  lemma PersonalExt(p: PersonalInfo, q: PersonalInfo)
    requires forall g: PersonalField :: FieldOf(p, g) == FieldOf(q, g)
    ensures p == q
  {
    assert FieldOf(p, Name) == FieldOf(q, Name);
    assert FieldOf(p, Date) == FieldOf(q, Date);
    assert FieldOf(p, StudentDisorder) == FieldOf(q, StudentDisorder);
  }

  /** Typing the value a field already holds changes nothing; of two edits to one field the last wins. */
  lemma SetPersonalLaws(f: FormData, field: PersonalField, a: string, b: string)
    ensures SetPersonal(f, field, FieldOf(f.personalInfo, field)) == f
    ensures SetPersonal(SetPersonal(f, field, a), field, b) == SetPersonal(f, field, b)
  {
    PersonalExt(SetPersonal(f, field, FieldOf(f.personalInfo, field)).personalInfo, f.personalInfo);
    PersonalExt(SetPersonal(SetPersonal(f, field, a), field, b).personalInfo,
                SetPersonal(f, field, b).personalInfo);
  }

  // ---------------------------------------------------------------------------
  // Addressing one item
  // ---------------------------------------------------------------------------

  /** `sectionIndex` and `itemIndex` name an item of a rating section. */
  predicate RatingAddress(f: FormData, si: int, ii: int) {
    0 <= si < |f.sections| && f.sections[si].items.RatingItems? && 0 <= ii < |f.sections[si].items.ratings|
  }

  /** `sectionIndex` and `itemIndex` name an item of a text section. */
  predicate TextAddress(f: FormData, si: int, ii: int) {
    0 <= si < |f.sections| && f.sections[si].items.TextItems? && 0 <= ii < |f.sections[si].items.texts|
  }

  /**
   * `b` is `a` with at most item `ii` of section `si` replaced: the personal
   * information, every other section, the section's own fields and kind, its
   * length and every other item are as they were.
   */
  predicate OnlyItemChanged(a: FormData, b: FormData, si: int, ii: int)
    requires 0 <= si < |a.sections|
  {
    && b.personalInfo == a.personalInfo
    && |b.sections| == |a.sections|
    && (forall k | 0 <= k < |a.sections| && k != si :: b.sections[k] == a.sections[k])
    && var s, t := a.sections[si], b.sections[si];
    && t.id == s.id && t.title == s.title && t.description == s.description
    && match (s.items, t.items)
       case (RatingItems(xs), RatingItems(ys)) =>
         |ys| == |xs| && forall j | 0 <= j < |xs| && j != ii :: ys[j] == xs[j]
       case (TextItems(xs), TextItems(ys)) =>
         |ys| == |xs| && forall j | 0 <= j < |xs| && j != ii :: ys[j] == xs[j]
       case _ => false
  }

  // ---------------------------------------------------------------------------
  // `handleRatingItemChange` and `handleTextItemChange`
  // ---------------------------------------------------------------------------

  /** The `field` and `value` of `handleRatingItemChange`: a new rating, or a new comment. */
  datatype RatingEdit = NewRating(rating: int) | NewComment(comment: string)

  /** `handleRatingItemChange(sectionIndex, itemIndex, field, value)`. */
  function EditRating(f: FormData, si: int, ii: int, edit: RatingEdit): (r: FormData)
    requires RatingAddress(f, si, ii)
    ensures RatingAddress(r, si, ii)
    ensures OnlyItemChanged(f, r, si, ii)
    ensures var x, y := f.sections[si].items.ratings[ii], r.sections[si].items.ratings[ii];
      && y.id == x.id && y.question == x.question && y.commentPlaceholder == x.commentPlaceholder
      && match edit
         case NewRating(v) => y.rating == Some(v) && y.comment == x.comment
         case NewComment(c) => y.comment == c && y.rating == x.rating
  {
    var s := f.sections[si];
    var rs := s.items.ratings;
    var item := match edit
      case NewRating(v) => rs[ii].(rating := Some(v))
      case NewComment(c) => rs[ii].(comment := c);
    f.(sections := f.sections[si := s.(items := RatingItems(rs[ii := item]))])
  }

  /** `handleTextItemChange(sectionIndex, itemIndex, value)`. */
  function EditAnswer(f: FormData, si: int, ii: int, value: string): (r: FormData)
    requires TextAddress(f, si, ii)
    ensures TextAddress(r, si, ii)
    ensures OnlyItemChanged(f, r, si, ii)
    ensures var x, y := f.sections[si].items.texts[ii], r.sections[si].items.texts[ii];
      && y.answer == value
      && y.id == x.id && y.question == x.question && y.description == x.description
      && y.inputType == x.inputType
  {
    var s := f.sections[si];
    var ts := s.items.texts;
    f.(sections := f.sections[si := s.(items := TextItems(ts[ii := ts[ii].(answer := value)]))])
  }

  /** Repeating an edit is the same as making it once. */
  lemma EditsIdempotent(f: FormData, si: int, ii: int, edit: RatingEdit, value: string)
    ensures RatingAddress(f, si, ii) ==> EditRating(EditRating(f, si, ii, edit), si, ii, edit) == EditRating(f, si, ii, edit)
    ensures TextAddress(f, si, ii) ==> EditAnswer(EditAnswer(f, si, ii, value), si, ii, value) == EditAnswer(f, si, ii, value)
  {
    if RatingAddress(f, si, ii) {
      var once := EditRating(f, si, ii, edit);
      var rs := once.sections[si].items.ratings;
      assert rs[ii := rs[ii]] == rs;
      assert once.sections[si := once.sections[si]] == once.sections;
    }
    if TextAddress(f, si, ii) {
      var once := EditAnswer(f, si, ii, value);
      var ts := once.sections[si].items.texts;
      assert ts[ii := ts[ii]] == ts;
      assert once.sections[si := once.sections[si]] == once.sections;
    }
  }

  /** Writing back the answer an item already has leaves the form as it was. */
  lemma EditAnswerCurrent(f: FormData, si: int, ii: int)
    requires TextAddress(f, si, ii)
    ensures EditAnswer(f, si, ii, f.sections[si].items.texts[ii].answer) == f
  {
    var s := f.sections[si];
    var ts := s.items.texts;
    assert ts[ii := ts[ii].(answer := ts[ii].answer)] == ts;
    assert f.sections[si := s] == f.sections;
  }

  // ---------------------------------------------------------------------------
  // How an edit moves the progress counts
  // ---------------------------------------------------------------------------

  function Indicator(b: bool): nat {
    if b then 1 else 0
  }

  lemma {:induction false} RatingsAnsweredUpdate(rs: seq<RatingItem>, j: int, x: RatingItem)
    requires 0 <= j < |rs|
    ensures RatingsAnswered(rs[j := x]) + Indicator(RatingCounted(rs[j]))
         == RatingsAnswered(rs) + Indicator(RatingCounted(x))
  {
    var n := |rs| - 1;
    var init, u := rs[..n], rs[j := x];
    assert RatingsAnswered(rs) == RatingsAnswered(init) + Indicator(RatingCounted(rs[n]));
    assert RatingsAnswered(u) == RatingsAnswered(u[..n]) + Indicator(RatingCounted(u[n]));
    if j == n {
      assert u[..n] == init;
    } else {
      assert u[..n] == init[j := x];
      RatingsAnsweredUpdate(init, j, x);
    }
  }

  lemma TextsAnsweredSnoc(ts: seq<TextItem>)
    requires ts != []
    ensures TextsAnswered(ts) == TextsAnswered(ts[..|ts| - 1]) + Indicator(TextCounted(ts[|ts| - 1]))
  {
  }

  lemma {:induction false} TextsAnsweredUpdate(ts: seq<TextItem>, j: int, x: TextItem)
    requires 0 <= j < |ts|
    ensures TextsAnswered(ts[j := x]) + Indicator(TextCounted(ts[j]))
         == TextsAnswered(ts) + Indicator(TextCounted(x))
  {
    var n := |ts| - 1;
    var init, u := ts[..n], ts[j := x];
    TextsAnsweredSnoc(ts);
    TextsAnsweredSnoc(u);
    if j == n {
      assert u[..n] == init;
    } else {
      assert u[..n] == init[j := x];
      TextsAnsweredUpdate(init, j, x);
    }
  }

  lemma SectionsSnoc(ss: seq<Section>)
    requires ss != []
    ensures SectionsSize(ss) == SectionsSize(ss[..|ss| - 1]) + ss[|ss| - 1].Size()
    ensures SectionsAnswered(ss) == SectionsAnswered(ss[..|ss| - 1]) + SectionAnswered(ss[|ss| - 1])
  {
  }

  /** Replacing one section by one of the same size keeps the item total and shifts the answered count by the difference. */
  lemma {:induction false} SectionsUpdate(ss: seq<Section>, i: int, s: Section)
    requires 0 <= i < |ss| && s.Size() == ss[i].Size()
    ensures SectionsSize(ss[i := s]) == SectionsSize(ss)
    ensures SectionsAnswered(ss[i := s]) + SectionAnswered(ss[i]) == SectionsAnswered(ss) + SectionAnswered(s)
  {
    var n := |ss| - 1;
    var init, u := ss[..n], ss[i := s];
    SectionsSnoc(ss);
    SectionsSnoc(u);
    if i == n {
      assert u[..n] == init;
    } else {
      assert u[..n] == init[i := s];
      SectionsUpdate(init, i, s);
    }
  }

  /** A rating edit keeps the total and moves the answered count by the item's change of status. */
  lemma EditRatingCounts(f: FormData, si: int, ii: int, edit: RatingEdit)
    requires RatingAddress(f, si, ii)
    ensures var r := EditRating(f, si, ii, edit);
      && Total(r) == Total(f)
      && Answered(r) + Indicator(RatingCounted(f.sections[si].items.ratings[ii]))
         == Answered(f) + Indicator(RatingCounted(r.sections[si].items.ratings[ii]))
  {
    var r := EditRating(f, si, ii, edit);
    var rs := f.sections[si].items.ratings;
    var y := r.sections[si].items.ratings[ii];
    assert r.sections[si].items.ratings == rs[ii := y];
    assert r.sections == f.sections[si := r.sections[si]];
    RatingsAnsweredUpdate(rs, ii, y);
    SectionsUpdate(f.sections, si, r.sections[si]);
  }

  /** An answer edit keeps the total and moves the answered count by the item's change of status. */
  lemma EditAnswerCounts(f: FormData, si: int, ii: int, value: string)
    requires TextAddress(f, si, ii)
    ensures var r := EditAnswer(f, si, ii, value);
      && Total(r) == Total(f)
      && Answered(r) + Indicator(TextCounted(f.sections[si].items.texts[ii]))
         == Answered(f) + Indicator(TextCounted(r.sections[si].items.texts[ii]))
  {
    var r := EditAnswer(f, si, ii, value);
    var ts := f.sections[si].items.texts;
    var y := r.sections[si].items.texts[ii];
    assert r.sections[si].items.texts == ts[ii := y];
    assert r.sections == f.sections[si := r.sections[si]];
    TextsAnsweredUpdate(ts, ii, y);
    SectionsUpdate(f.sections, si, r.sections[si]);
  }

  /** Editing a comment never moves the progress bar. */
  lemma CommentKeepsProgress(f: FormData, si: int, ii: int, c: string)
    requires RatingAddress(f, si, ii)
    ensures Progress(EditRating(f, si, ii, NewComment(c))) == Progress(f)
  {
    EditRatingCounts(f, si, ii, NewComment(c));
  }

  /** Picking a scale value for an unrated item adds exactly one answered item. */
  lemma FirstRatingCountsOnce(f: FormData, si: int, ii: int, v: int)
    requires RatingAddress(f, si, ii) && OnScale(v)
    requires f.sections[si].items.ratings[ii].rating.None?
    ensures Answered(EditRating(f, si, ii, NewRating(v))) == Answered(f) + 1
  {
    EditRatingCounts(f, si, ii, NewRating(v));
  }

  /** A personal edit keeps the total and moves the answered count by the field's change of emptiness. */
  lemma SetPersonalCounts(f: FormData, field: PersonalField, value: string)
    ensures var r := SetPersonal(f, field, value);
      && Total(r) == Total(f)
      && Answered(r) + Indicator(FieldOf(f.personalInfo, field) != "")
         == Answered(f) + Indicator(value != "")
  {
  }
}

=== FILE: form_rules.dfy ===
/**
 * The progress calculator, the per-section statistics and the step validators of
 * the application component. They apply three slightly different readings of
 * "answered": progress counts truthy values and untrimmed lengths, the section
 * statistics count non-null ratings, and validation trims text first.
 */
module FormRules {
  import opened Options
  import opened JsStrings
  import opened Rounding
  import opened Types

  // ---------------------------------------------------------------------------
  // What `calculateProgress` counts as answered
  // ---------------------------------------------------------------------------

  /** JavaScript truthiness of a rating: `null` and `0` are falsy. */
  predicate RatingTruthy(rating: Option<int>) {
    rating.Some? && rating.value != 0
  }

  /** `inputType === 'number'`: an absent input type reads as free text. */
  predicate IsNumeric(item: TextItem) {
    item.inputType == Some(NumberInput)
  }

  predicate RatingCounted(item: RatingItem) {
    RatingTruthy(item.rating)
  }

  /** A numeric answer counts when non-empty, a free-text one when longer than five code units, untrimmed. */
  predicate TextCounted(item: TextItem) {
    if IsNumeric(item) then item.answer != "" else JsLength(item.answer) > 5
  }

  /** The personal fields that are non-empty strings. */
  function PersonalAnswered(p: PersonalInfo): (n: nat)
    ensures n <= 3
    ensures n == 3 <==> p.name != "" && p.date != "" && p.studentDisorder != ""
  {
    (if p.name != "" then 1 else 0)
    + (if p.date != "" then 1 else 0)
    + (if p.studentDisorder != "" then 1 else 0)
  }

  function RatingsAnswered(rs: seq<RatingItem>): (n: nat)
    ensures n <= |rs|
    ensures n == |rs| <==> forall k | 0 <= k < |rs| :: RatingCounted(rs[k])
  {
    if rs == [] then 0
    else RatingsAnswered(rs[..|rs| - 1]) + (if RatingCounted(rs[|rs| - 1]) then 1 else 0)
  }

  function TextsAnswered(ts: seq<TextItem>): (n: nat)
    ensures n <= |ts|
    ensures n == |ts| <==> forall k | 0 <= k < |ts| :: TextCounted(ts[k])
  {
    if ts == [] then 0
    else TextsAnswered(ts[..|ts| - 1]) + (if TextCounted(ts[|ts| - 1]) then 1 else 0)
  }

  /** Every item of the section counts for progress. */
  predicate SectionCounted(s: Section) {
    match s.items
    case RatingItems(rs) => forall k | 0 <= k < |rs| :: RatingCounted(rs[k])
    case TextItems(ts) => forall k | 0 <= k < |ts| :: TextCounted(ts[k])
  }

  /** The section's contribution to the answered count. */
  function SectionAnswered(s: Section): (n: nat)
    ensures n <= s.Size()
    ensures n == s.Size() <==> SectionCounted(s)
  {
    match s.items
    case RatingItems(rs) => RatingsAnswered(rs)
    case TextItems(ts) => TextsAnswered(ts)
  }

  /** The number of items over all sections. */
  function SectionsSize(ss: seq<Section>): nat {
    if ss == [] then 0 else SectionsSize(ss[..|ss| - 1]) + ss[|ss| - 1].Size()
  }

  function SectionsAnswered(ss: seq<Section>): (n: nat)
    ensures n <= SectionsSize(ss)
    ensures n == SectionsSize(ss) <==> forall i | 0 <= i < |ss| :: SectionCounted(ss[i])
  {
    if ss == [] then 0
    else
      var init := ss[..|ss| - 1];
      var n := SectionsAnswered(init) + SectionAnswered(ss[|ss| - 1]);
      assert forall i | 0 <= i < |init| :: init[i] == ss[i];
      n
  }

  /** `totalItems`: the three personal fields and every item. */
  function Total(f: FormData): (t: nat)
    ensures t >= 3
  {
    3 + SectionsSize(f.sections)
  }

  /** `answeredItems`. */
  function Answered(f: FormData): (n: nat)
    ensures n <= Total(f)
    ensures n == Total(f) <==>
      PersonalAnswered(f.personalInfo) == 3 && forall i | 0 <= i < |f.sections| :: SectionCounted(f.sections[i])
  {
    PersonalAnswered(f.personalInfo) + SectionsAnswered(f.sections)
  }

  /** The progress percentage: 0 to 100, and 100 exactly when everything counts (for under 200 fields). */
  function Progress(f: FormData): (p: int)
    ensures 0 <= p <= 100
    ensures Total(f) < 200 ==> (p == 100 <==> Answered(f) == Total(f))
  {
    PercentBounds(Answered(f), Total(f));
    if Total(f) < 200 then PercentFullIff(Answered(f), Total(f)); RoundPercent(Answered(f), Total(f))
    else RoundPercent(Answered(f), Total(f))
  }

  /** The inner `section.items.forEach` of `calculateProgress`: how many items it adds, and how many of them count. */
  method CountSection(section: Section) returns (seen: nat, answered: nat)
    ensures seen == section.Size()
    ensures answered == SectionAnswered(section)
  {
    seen, answered := 0, 0;
    match section.items {
      case RatingItems(rs) =>
        while seen < |rs|
          invariant seen <= |rs|
          invariant answered == RatingsAnswered(rs[..seen])
        {
          assert rs[..seen + 1][..seen] == rs[..seen];
          if rs[seen].rating.Some? && rs[seen].rating.value != 0 {
            answered := answered + 1;
          }
          seen := seen + 1;
        }
        assert rs[..seen] == rs;
      case TextItems(ts) =>
        while seen < |ts|
          invariant seen <= |ts|
          invariant answered == TextsAnswered(ts[..seen])
        {
          assert ts[..seen + 1][..seen] == ts[..seen];
          if ts[seen].inputType == Some(NumberInput) {
            if ts[seen].answer != "" {
              answered := answered + 1;
            }
          } else {
            if JsLength(ts[seen].answer) > 5 {
              answered := answered + 1;
            }
          }
          seen := seen + 1;
        }
        assert ts[..seen] == ts;
    }
  }

  /** `calculateProgress`: walks the personal fields, then every item of every section. */
  method CalculateProgress(f: FormData) returns (percent: int)
    ensures percent == Progress(f)
  {
    var totalItems := 0;
    var answeredItems := 0;
    totalItems := totalItems + 3;
    if f.personalInfo.name != "" { answeredItems := answeredItems + 1; }
    if f.personalInfo.date != "" { answeredItems := answeredItems + 1; }
    if f.personalInfo.studentDisorder != "" { answeredItems := answeredItems + 1; }
    var i := 0;
    while i < |f.sections|
      invariant 0 <= i <= |f.sections|
      invariant totalItems == 3 + SectionsSize(f.sections[..i])
      invariant answeredItems == PersonalAnswered(f.personalInfo) + SectionsAnswered(f.sections[..i])
    {
      var seen, answered := CountSection(f.sections[i]);
      totalItems := totalItems + seen;
      answeredItems := answeredItems + answered;
      ghost var done := f.sections[..i + 1];
      assert done[..i] == f.sections[..i] && done[i] == f.sections[i];
      assert SectionsSize(done) == SectionsSize(f.sections[..i]) + f.sections[i].Size();
      assert SectionsAnswered(done) == SectionsAnswered(f.sections[..i]) + SectionAnswered(f.sections[i]);
      i := i + 1;
    }
    assert f.sections[..i] == f.sections;
    assert totalItems == Total(f) && answeredItems == Answered(f);
    percent := RoundPercent(answeredItems, totalItems);
  }

  // ---------------------------------------------------------------------------
  // `getSectionStats`
  // ---------------------------------------------------------------------------

  datatype SectionStats = SectionStats(completed: nat, total: nat)

  /** Ratings that are not `null`, the statistics' reading of "answered". */
  function RatingsPresent(rs: seq<RatingItem>): (n: nat)
    ensures n <= |rs|
  {
    if rs == [] then 0
    else RatingsPresent(rs[..|rs| - 1]) + (if rs[|rs| - 1].rating.Some? then 1 else 0)
  }

  /** The completed and total item counts a section header shows. */
  function GetSectionStats(s: Section): (r: SectionStats)
    ensures r.completed <= r.total == s.Size()
  {
    match s.items
    case RatingItems(rs) => SectionStats(RatingsPresent(rs), |rs|)
    case TextItems(ts) => SectionStats(TextsAnswered(ts), |ts|)
  }

  /** No rating of the section is the falsy number 0. */
  predicate NoZeroRatings(s: Section) {
    match s.items
    case RatingItems(rs) => forall k | 0 <= k < |rs| :: rs[k].rating != Some(0)
    case TextItems(_) => true
  }

  lemma {:induction false} RatingsPresentMatchAnswered(rs: seq<RatingItem>)
    requires forall k | 0 <= k < |rs| :: rs[k].rating != Some(0)
    ensures RatingsPresent(rs) == RatingsAnswered(rs)
  {
    if rs != [] {
      var init := rs[..|rs| - 1];
      assert forall k | 0 <= k < |init| :: init[k] == rs[k];
      RatingsPresentMatchAnswered(init);
    }
  }

  /** Without zero ratings, the section header's count is the section's share of progress. */
  lemma StatsMatchProgress(s: Section)
    requires NoZeroRatings(s)
    ensures GetSectionStats(s).completed == SectionAnswered(s)
  {
    if s.items.RatingItems? {
      RatingsPresentMatchAnswered(s.items.ratings);
    }
  }

  /** A rating of 0 is complete for the section header but not for progress. */
  lemma ZeroRatingSplitsStats()
    ensures var s := Section("s", "t", "d", RatingItems([RatingItem("1", "q", Some(0), "", None)]));
      GetSectionStats(s).completed == 1 && SectionAnswered(s) == 0
  {
    var rs := [RatingItem("1", "q", Some(0), "", None)];
    assert rs[..0] == [];
  }

  // ---------------------------------------------------------------------------
  // Validators and `validateCurrentStep`
  // ---------------------------------------------------------------------------

  /** `isRatingValid`: the rating is not `null`. */
  predicate IsRatingValid(rating: Option<int>) {
    rating.Some?
  }

  /** `isTextValid`: a numeric answer must be non-empty, a free one longer than five code units once trimmed. */
  predicate IsTextValid(text: string, isNumber: bool) {
    if isNumber then text != "" else text != "" && JsLength(Trim(text)) > 5
  }

  /** `isInfoValid`: non-empty after trimming. */
  predicate IsInfoValid(text: string) {
    text != "" && JsLength(Trim(text)) > 0
  }

  predicate PersonalValid(p: PersonalInfo) {
    IsInfoValid(p.name) && IsInfoValid(p.date) && IsInfoValid(p.studentDisorder)
  }

  /** Every item of the section passes its validator, read by the section's type. */
  predicate SectionValid(s: Section) {
    match s.items
    case RatingItems(rs) => forall k | 0 <= k < |rs| :: IsRatingValid(rs[k].rating)
    case TextItems(ts) => forall k | 0 <= k < |ts| :: IsTextValid(ts[k].answer, IsNumeric(ts[k]))
  }

  /** `validateCurrentStep`: step 0 is the personal information, step i the i-th section. */
  predicate ValidateStep(f: FormData, step: int)
    requires 0 <= step <= |f.sections|
  {
    if step == 0 then PersonalValid(f.personalInfo) else SectionValid(f.sections[step - 1])
  }

  /** A personal field is valid exactly when it is not blank. */
  lemma InfoValidIffNotBlank(text: string)
    ensures IsInfoValid(text) <==> !AllWhitespace(text)
  {
    TrimBlank(text);
  }

  /** A valid answer also counts for progress. */
  lemma ValidTextIsCounted(item: TextItem)
    requires IsTextValid(item.answer, IsNumeric(item))
    ensures TextCounted(item)
  {
    TrimLength(item.answer);
  }

  /** A valid step has every one of its fields or items counted by progress. */
  lemma ValidStepIsCounted(f: FormData, step: int)
    requires 0 <= step <= |f.sections|
    requires step > 0 ==> NoZeroRatings(f.sections[step - 1])
    requires ValidateStep(f, step)
    ensures step == 0 ==> PersonalAnswered(f.personalInfo) == 3
    ensures step > 0 ==> SectionAnswered(f.sections[step - 1]) == f.sections[step - 1].Size()
  {
    if step > 0 {
      var s := f.sections[step - 1];
      match s.items
      case RatingItems(rs) =>
      case TextItems(ts) =>
        forall k | 0 <= k < |ts|
          ensures TextCounted(ts[k])
        {
          ValidTextIsCounted(ts[k]);
        }
    }
  }

  /** Six spaces count for progress yet fail validation; so does a blank personal field. */
  lemma CountedButInvalid()
    ensures var item := TextItem("4.1", "q", None, "      ", None);
      TextCounted(item) && !IsTextValid(item.answer, IsNumeric(item))
    ensures var p := PersonalInfo(" ", "2025-01-01", "TEA");
      PersonalAnswered(p) == 3 && !PersonalValid(p)
  {
    TrimBlank("      ");
    TrimBlank(" ");
  }

  /** When every step validates, progress reaches 100%. */
  lemma AllStepsValidMeansFullProgress(f: FormData)
    requires forall i | 0 <= i < |f.sections| :: NoZeroRatings(f.sections[i])
    requires forall step | 0 <= step <= |f.sections| :: ValidateStep(f, step)
    ensures Answered(f) == Total(f)
    ensures Progress(f) == 100
  {
    assert ValidateStep(f, 0);
    ValidStepIsCounted(f, 0);
    forall i | 0 <= i < |f.sections|
      ensures SectionCounted(f.sections[i])
    {
      assert ValidateStep(f, i + 1);
      ValidStepIsCounted(f, i + 1);
      assert SectionAnswered(f.sections[i]) == f.sections[i].Size();
    }
    FullProgress(f);
  }

  /** Everything answered shows as 100%. */
  lemma FullProgress(f: FormData)
    requires Answered(f) == Total(f)
    ensures Progress(f) == 100
  {
    PercentOfWhole(Total(f));
  }

  /** The converse fails: a whitespace answer reaches 100% while its step does not validate. */
  lemma FullProgressDoesNotMeanValid()
    ensures var f := FormData(PersonalInfo("Ana", "2025-01-01", "TEA"),
                              [Section("s4", "t", "d", TextItems([TextItem("4.1", "q", None, "      ", None)]))]);
      Progress(f) == 100 && !ValidateStep(f, 1)
  {
    var item := TextItem("4.1", "q", None, "      ", None);
    CountedButInvalid();
    var ts := [item];
    assert ts[..0] == [];
    assert TextsAnswered(ts) == 1;
    var ss := [Section("s4", "t", "d", TextItems(ts))];
    assert ss[..0] == [];
    assert SectionsAnswered(ss) == 1 && SectionsSize(ss) == 1;
    PercentOfWhole(4);
  }
}

=== FILE: js_strings.dfy ===
/**
 * The parts of the JavaScript string library the questionnaire relies on:
 * `length` (counted in UTF-16 code units), `trim`, `startsWith`, `endsWith`,
 * `replace` with a string pattern, and the regular-expression class `\s`.
 * A Dafny `string` is a sequence of Unicode scalar values.
 */
module JsStrings {
  import opened Options

  /**
   * A white-space or line-terminator code point: the set `String.prototype.trim`
   * strips and the class `\s` matches (ECMA-262, sections 12.2 and 12.3).
   */
  predicate IsWhitespace(c: char) {
    || c == '\t' || c == '\n' || c == '\U{000B}' || c == '\U{000C}' || c == '\r'
    || c == ' ' || c == '\U{00A0}' || c == '\U{1680}' || ('\U{2000}' <= c <= '\U{200A}')
    || c == '\U{2028}' || c == '\U{2029}' || c == '\U{202F}' || c == '\U{205F}'
    || c == '\U{3000}' || c == '\U{FEFF}'
  }

  predicate AllWhitespace(s: string) {
    forall i | 0 <= i < |s| :: IsWhitespace(s[i])
  }

  /** The UTF-16 code units one code point takes: what it adds to `length`. */
  function CodeUnits(c: char): nat {
    if c as int >= 0x1_0000 then 2 else 1
  }

  /** JavaScript's `s.length`: code points beyond the basic plane count twice. */
  function JsLength(s: string): (n: nat)
    ensures |s| <= n <= 2 * |s|
    ensures n == 0 <==> s == ""
  {
    if s == "" then 0 else CodeUnits(s[0]) + JsLength(s[1..])
  }

  /** Three emoji are three characters but six code units: enough for a free answer's `length > 5`. */
  lemma EmojiCountTwice()
    ensures JsLength("\U{1F600}\U{1F600}\U{1F600}") == 6
    ensures JsLength("abc") == 3
  {
    var s := "\U{1F600}\U{1F600}\U{1F600}";
    assert s[1..][1..][1..] == "";
    var t := "abc";
    assert t[1..][1..][1..] == "";
  }

  lemma {:induction false} JsLengthAppend(a: string, b: string)
    ensures JsLength(a + b) == JsLength(a) + JsLength(b)
  {
    if a == "" {
      assert a + b == b;
    } else {
      assert (a + b)[0] == a[0];
      assert (a + b)[1..] == a[1..] + b;
      JsLengthAppend(a[1..], b);
    }
  }

  /** `s.trimStart()`: the longest suffix of `s` that does not start with white space. */
  function TrimStart(s: string): (r: string)
    ensures |r| <= |s| && r == s[|s| - |r|..]
    ensures AllWhitespace(s[..|s| - |r|])
    ensures r == "" || !IsWhitespace(r[0])
  {
    if s != "" && IsWhitespace(s[0]) then TrimStart(s[1..]) else s
  }

  /** `s.trimEnd()`: the longest prefix of `s` that does not end with white space. */
  function TrimEnd(s: string): (r: string)
    ensures |r| <= |s| && r == s[..|r|]
    ensures AllWhitespace(s[|r|..])
    ensures r == "" || !IsWhitespace(r[|r| - 1])
  {
    if s != "" && IsWhitespace(s[|s| - 1]) then TrimEnd(s[..|s| - 1]) else s
  }

  /** `s.trim()`: white space removed at both ends. */
  function Trim(s: string): (r: string)
    ensures r == "" || (!IsWhitespace(r[0]) && !IsWhitespace(r[|r| - 1]))
  {
    TrimEnd(TrimStart(s))
  }

  /** Trimming leaves nothing exactly of a blank string. */
  lemma TrimBlank(s: string)
    ensures Trim(s) == "" <==> AllWhitespace(s)
  {
    var front := TrimStart(s);
    var k := |s| - |front|;
    if Trim(s) == "" {
      assert s == s[..k];
    } else if front != "" {
      assert s[k] == front[0];
    }
  }

  /** A slice of a string is no longer than the string. */
  lemma SliceLength(s: string, i: nat, j: nat)
    requires i <= j <= |s|
    ensures JsLength(s[i..j]) <= JsLength(s)
  {
    assert s == s[..i] + s[i..j] + s[j..];
    JsLengthAppend(s[..i] + s[i..j], s[j..]);
    JsLengthAppend(s[..i], s[i..j]);
  }

  /** Trimming never lengthens a string. */
  lemma TrimLength(s: string)
    ensures JsLength(Trim(s)) <= JsLength(s)
  {
    var front := TrimStart(s);
    assert s[|s| - |front|..|s|] == front;
    SliceLength(s, |s| - |front|, |s|);
    var r := TrimEnd(front);
    assert front[0..|r|] == r;
    SliceLength(front, 0, |r|);
  }

  /** Trimming a string with no white space at either end changes nothing. */
  lemma TrimUnpadded(s: string)
    requires s != "" && !IsWhitespace(s[0]) && !IsWhitespace(s[|s| - 1])
    ensures Trim(s) == s
  {
  }

  /** `s.startsWith(p)`. */
  predicate StartsWith(s: string, p: string) {
    |p| <= |s| && s[..|p|] == p
  }

  /** `s.endsWith(p)`. */
  predicate EndsWith(s: string, p: string) {
    |p| <= |s| && s[|s| - |p|..] == p
  }

  predicate OccursAt(s: string, p: string, i: int) {
    0 <= i && i + |p| <= |s| && s[i..i + |p|] == p
  }

  /** The first position at or after `from` where `p` occurs in `s`. */
  function IndexFrom(s: string, p: string, from: nat): (r: Option<nat>)
    requires from <= |s|
    ensures r.Some? ==> from <= r.value && OccursAt(s, p, r.value)
    ensures forall j | from <= j && (r.None? || j < r.value) :: !OccursAt(s, p, j)
    decreases |s| - from
  {
    if OccursAt(s, p, from) then Some(from)
    else if from == |s| then None
    else IndexFrom(s, p, from + 1)
  }

  /** `s.indexOf(p)`. */
  function IndexOf(s: string, p: string): Option<nat> {
    IndexFrom(s, p, 0)
  }

  /** `s.replace(p, rep)` with a string pattern: only the first occurrence is replaced. */
  function ReplaceFirst(s: string, p: string, rep: string): string {
    match IndexOf(s, p)
    case None => s
    case Some(i) => s[..i] + rep + s[i + |p|..]
  }

  /** Replacing a prefix the string starts with by nothing removes exactly that prefix. */
  lemma ReplaceLeadingPattern(s: string, p: string)
    requires StartsWith(s, p)
    ensures ReplaceFirst(s, p, "") == s[|p|..]
  {
    assert OccursAt(s, p, 0);
  }

  /** A pattern that does not occur is left alone. */
  lemma ReplaceAbsentPattern(s: string, p: string, rep: string)
    requires forall j :: !OccursAt(s, p, j)
    ensures ReplaceFirst(s, p, rep) == s
  {
  }
}

=== FILE: navigation.dfy ===
/**
 * The application component as a state machine: the form, the active step
 * (0 is the personal information, step i shows section i), the flag that paints
 * unanswered fields red, and the report's status and text. Button handlers are
 * transitions; the browser's `confirm` dialog is a boolean input and the report
 * service's reply is an event of its own.
 */
module Navigation {
  import opened Options
  import opened Types
  import opened FormRules
  import opened Constants
  import opened Editing
  import opened Widgets
  import opened Report

  datatype ReportStatus = Idle | Loading | Success | Error

  datatype UiState = UiState(
    form: FormData,
    step: int,
    showErrors: bool,
    status: ReportStatus,
    content: string)

  /** The state the component mounts with. */
  function Initial(today: string, text: (string, Prose) -> string): UiState {
    UiState(InitialDataWith(today, text), 0, false, Idle, "")
  }

  /** `activeSection < totalSteps - 1`: the footer offers "next" rather than "generate report". */
  predicate OnLastStep(s: UiState) {
    s.step == |s.form.sections|
  }

  // ---------------------------------------------------------------------------
  // Button handlers
  // ---------------------------------------------------------------------------

  /**
   * `handleNext`. A valid step advances at once; an invalid one raises the error
   * flag and advances (lowering it again) only when the user confirms.
   */
  function Next(s: UiState, confirmed: bool): (r: UiState)
    requires 0 <= s.step <= |s.form.sections|
    ensures r.form == s.form && r.status == s.status && r.content == s.content
    ensures r.step == s.step + 1 <==> ValidateStep(s.form, s.step) || confirmed
    ensures r.step == s.step || r.step == s.step + 1
    ensures r.showErrors <==> r.step == s.step
  {
    if ValidateStep(s.form, s.step) || confirmed then s.(showErrors := false, step := s.step + 1)
    else s.(showErrors := true)
  }

  /** `handlePrev`: one step back, errors hidden. */
  function Prev(s: UiState): (r: UiState)
    ensures r.step == s.step - 1 && !r.showErrors
    ensures r.form == s.form && r.status == s.status && r.content == s.content
  {
    s.(showErrors := false, step := s.step - 1)
  }

  /**
   * `handleSubmit` up to the service call: below 100% the error flag is raised
   * and a declined confirmation stops there; otherwise the status turns to
   * loading and the payload built from the form is sent.
   */
  function Submit(s: UiState, confirmed: bool): (r: (UiState, Option<Payload>))
    ensures r.0.form == s.form && r.0.step == s.step && r.0.content == s.content
    ensures r.1.Some? <==> Progress(s.form) == 100 || confirmed
    ensures r.1.Some? ==> r.1.value == BuildPayload(s.form) && r.0.status == Loading
    ensures r.1.None? ==> r.0.status == s.status
    ensures r.0.showErrors <==> s.showErrors || Progress(s.form) < 100
  {
    var flagged := if Progress(s.form) < 100 then s.(showErrors := true) else s;
    if Progress(s.form) < 100 && !confirmed then (flagged, None)
    else (flagged.(status := Loading), Some(BuildPayload(s.form)))
  }

  /** The awaited reply: success with the report text, or the error status. */
  function Settle(s: UiState, outcome: ServiceOutcome): (r: UiState)
    ensures r.form == s.form && r.step == s.step && r.showErrors == s.showErrors
    ensures r.status == Success <==> outcome.Responded?
    ensures r.status == Error <==> outcome.Failed?
    ensures r.status == Success ==> r.content != "" && ReportText(outcome) == Ok(r.content)
    ensures r.status == Error ==> r.content == s.content
  {
    match ReportText(outcome)
    case Ok(t) => s.(content := t, status := Success)
    case Err(_) => s.(status := Error)
  }

  /** "Voltar ao Formulário": back to the form, which is kept, on the step it was left at. */
  function Back(s: UiState): (r: UiState)
    ensures r.status == Idle
    ensures r.form == s.form && r.step == s.step && r.showErrors == s.showErrors && r.content == s.content
  {
    s.(status := Idle)
  }

  // ---------------------------------------------------------------------------
  // Events
  // ---------------------------------------------------------------------------

  /** What the user (or the awaited service call) can do. Item indices are within the displayed section. */
  datatype Event =
    | TypePersonal(field: PersonalField, value: string)
    | PickRating(item: int, button: int)
    | TypeComment(item: int, text: string)
    | TypeAnswer(item: int, value: string)
    | PressNext(confirmed: bool)
    | PressPrev
    | PressSubmit(confirmed: bool)
    | Reply(outcome: ServiceOutcome)
    | PressBack

  /** The section the current step displays, as an index into the form's sections. */
  function Shown(s: UiState): int {
    s.step - 1
  }

  /**
   * Whether the page currently offers the event. The report page offers only
   * "back"; the form offers the inputs of the displayed step, "previous" off the
   * first step, "next" before the last step and "generate" on it unless a
   * report is loading; a reply arrives only while loading.
   */
  predicate Enabled(s: UiState, e: Event) {
    match e
    case Reply(_) => s.status == Loading
    case PressBack => s.status == Success
    case _ =>
      s.status != Success &&
      match e
      case TypePersonal(_, _) => s.step == 0
      case PickRating(ii, b) => RatingAddress(s.form, Shown(s), ii) && 0 <= b < |RatingScale|
      case TypeComment(ii, _) => RatingAddress(s.form, Shown(s), ii)
      case TypeAnswer(ii, _) => TextAddress(s.form, Shown(s), ii)
      case PressNext(_) => 0 <= s.step < |s.form.sections|
      case PressPrev => s.step != 0
      case PressSubmit(_) => OnLastStep(s) && s.status != Loading
      case _ => false
  }

  /**
   * One transition. An event the page does not offer changes nothing; every
   * transition keeps the step on a page of the form and every rating on the
   * scale, and changes the answers only, never the questionnaire itself.
   */
  function Step(s: UiState, e: Event): (r: UiState)
    ensures !Enabled(s, e) ==> r == s
    ensures Inv(s) ==> Inv(r)
    ensures SameQuestionnaire(s.form, r.form)
  {
    if !Enabled(s, e) then s
    else
      match e
      case TypePersonal(field, value) => s.(form := SetPersonal(s.form, field, value))
      case PickRating(ii, b) =>
        var edit := NewRating(EmittedValue(b));
        EditRatingKeepsScale(s.form, Shown(s), ii, edit);
        EditRatingSame(s.form, Shown(s), ii, edit);
        s.(form := EditRating(s.form, Shown(s), ii, edit))
      case TypeComment(ii, text) =>
        EditRatingKeepsScale(s.form, Shown(s), ii, NewComment(text));
        EditRatingSame(s.form, Shown(s), ii, NewComment(text));
        s.(form := EditRating(s.form, Shown(s), ii, NewComment(text)))
      case TypeAnswer(ii, value) =>
        EditAnswerKeepsScale(s.form, Shown(s), ii, value);
        EditAnswerSame(s.form, Shown(s), ii, value);
        s.(form := EditAnswer(s.form, Shown(s), ii, value))
      case PressNext(confirmed) => Next(s, confirmed)
      case PressPrev => Prev(s)
      case PressSubmit(confirmed) => Submit(s, confirmed).0
      case Reply(outcome) => Settle(s, outcome)
      case PressBack => Back(s)
  }

  // ---------------------------------------------------------------------------
  // What every reachable state satisfies
  // ---------------------------------------------------------------------------

  /** Every rating is `null` or a value of the scale. */
  predicate RatingsOnScale(f: FormData) {
    forall i, k | 0 <= i < |f.sections| && f.sections[i].items.RatingItems? && 0 <= k < |f.sections[i].items.ratings| ::
      f.sections[i].items.ratings[k].rating.None? || OnScale(f.sections[i].items.ratings[k].rating.value)
  }

  /** The step is a page of the form and no rating is off the scale. */
  predicate Inv(s: UiState) {
    0 <= s.step <= |s.form.sections| && RatingsOnScale(s.form)
  }

  lemma InitialInv(today: string, text: (string, Prose) -> string)
    ensures Inv(Initial(today, text))
  {
    InitiallyUnanswered(text);
  }

  /** Picking a scale value or typing a comment keeps every rating on the scale. */
  lemma EditRatingKeepsScale(f: FormData, si: int, ii: int, edit: RatingEdit)
    requires RatingAddress(f, si, ii)
    requires edit.NewRating? ==> OnScale(edit.rating)
    ensures RatingsOnScale(f) ==> RatingsOnScale(EditRating(f, si, ii, edit))
  {
    var r := EditRating(f, si, ii, edit);
    if RatingsOnScale(f) {
      forall i, k | 0 <= i < |r.sections| && r.sections[i].items.RatingItems? && 0 <= k < |r.sections[i].items.ratings|
        ensures r.sections[i].items.ratings[k].rating.None? || OnScale(r.sections[i].items.ratings[k].rating.value)
      {
        if i == si && k == ii {
          assert r.sections[i].items.ratings[k].rating == f.sections[i].items.ratings[k].rating || edit.NewRating?;
        } else if i == si {
          assert r.sections[i].items.ratings[k] == f.sections[i].items.ratings[k];
        } else {
          assert r.sections[i] == f.sections[i];
        }
      }
    }
  }

  /** Typing an answer leaves every rating as it was. */
  lemma EditAnswerKeepsScale(f: FormData, si: int, ii: int, value: string)
    requires TextAddress(f, si, ii)
    ensures RatingsOnScale(f) ==> RatingsOnScale(EditAnswer(f, si, ii, value))
  {
    var r := EditAnswer(f, si, ii, value);
    if RatingsOnScale(f) {
      forall i, k | 0 <= i < |r.sections| && r.sections[i].items.RatingItems? && 0 <= k < |r.sections[i].items.ratings|
        ensures r.sections[i].items.ratings[k].rating.None? || OnScale(r.sections[i].items.ratings[k].rating.value)
      {
        assert i != si;
        assert r.sections[i] == f.sections[i];
      }
    }
  }

  /** A rating or comment edit changes answers only. */
  lemma EditRatingSame(f: FormData, si: int, ii: int, edit: RatingEdit)
    requires RatingAddress(f, si, ii)
    ensures SameQuestionnaire(f, EditRating(f, si, ii, edit))
  {
    var r := EditRating(f, si, ii, edit);
    forall i | 0 <= i < |f.sections|
      ensures SameSection(f.sections[i], r.sections[i])
    {
      if i != si {
        assert r.sections[i] == f.sections[i];
      }
    }
  }

  /** An answer edit changes answers only. */
  lemma EditAnswerSame(f: FormData, si: int, ii: int, value: string)
    requires TextAddress(f, si, ii)
    ensures SameQuestionnaire(f, EditAnswer(f, si, ii, value))
  {
    var r := EditAnswer(f, si, ii, value);
    forall i | 0 <= i < |f.sections|
      ensures SameSection(f.sections[i], r.sections[i])
    {
      if i != si {
        assert r.sections[i] == f.sections[i];
      }
    }
  }

  /** The state after a sequence of events, one transition each. */
  function Run(s: UiState, es: seq<Event>): UiState
    decreases |es|
  {
    if es == [] then s else Run(Step(s, es[0]), es[1..])
  }

  /** Any sequence of events keeps the invariant. */
  lemma {:induction false} RunKeepsInv(s: UiState, es: seq<Event>)
    requires Inv(s)
    ensures Inv(Run(s, es))
    decreases |es|
  {
    if es != [] {
      RunKeepsInv(Step(s, es[0]), es[1..]);
    }
  }

  /** Every state the page can reach from the one it mounts with satisfies the invariant. */
  lemma Reachable(today: string, text: (string, Prose) -> string, es: seq<Event>)
    ensures Inv(Run(Initial(today, text), es))
  {
    InitialInv(today, text);
    RunKeepsInv(Initial(today, text), es);
  }

  /** No rating of a reachable state is the falsy 0. */
  lemma InvNoZeroRatings(s: UiState, i: int)
    requires Inv(s) && 0 <= i < |s.form.sections|
    ensures NoZeroRatings(s.form.sections[i])
  {
    var sec := s.form.sections[i];
    if sec.items.RatingItems? {
      var rs := sec.items.ratings;
      forall k | 0 <= k < |rs|
        ensures rs[k].rating != Some(0)
      {
        assert rs[k] == s.form.sections[i].items.ratings[k];
      }
    }
  }

  /** In a reachable state the displayed section's header counts exactly what progress counts for it. */
  lemma InvStatsAgree(s: UiState)
    requires Inv(s) && 0 < s.step
    ensures GetSectionStats(s.form.sections[Shown(s)]).completed == SectionAnswered(s.form.sections[Shown(s)])
  {
    InvNoZeroRatings(s, Shown(s));
    StatsMatchProgress(s.form.sections[Shown(s)]);
  }

  /** In a reachable state a step that validates has every one of its fields counted by progress. */
  lemma InvValidIsCounted(s: UiState)
    requires Inv(s) && ValidateStep(s.form, s.step)
    ensures s.step == 0 ==> PersonalAnswered(s.form.personalInfo) == 3
    ensures 0 < s.step ==> SectionCounted(s.form.sections[Shown(s)])
  {
    if 0 < s.step {
      InvNoZeroRatings(s, Shown(s));
    }
    ValidStepIsCounted(s.form, s.step);
  }

  /** In a reachable state where every page validates, progress shows 100%. */
  lemma InvAllValidIsFull(s: UiState)
    requires Inv(s)
    requires forall step | 0 <= step <= |s.form.sections| :: ValidateStep(s.form, step)
    ensures Progress(s.form) == 100
  {
    forall i | 0 <= i < |s.form.sections|
      ensures NoZeroRatings(s.form.sections[i])
    {
      InvNoZeroRatings(s, i);
    }
    AllStepsValidMeansFullProgress(s.form);
  }

  /** "Previous" does nothing on the first page; "next" never passes the last one. */
  lemma NavigationBounded(s: UiState, confirmed: bool)
    requires Inv(s)
    ensures s.step == 0 ==> Step(s, PressPrev) == s
    ensures OnLastStep(s) ==> Step(s, PressNext(confirmed)) == s
  {
  }

  /** A report can only be requested from the last page, and a second one not while the first is loading. */
  lemma SubmitOnlyFromLastPage(s: UiState, confirmed: bool)
    ensures Step(s, PressSubmit(confirmed)) != s ==> OnLastStep(s) && s.status != Loading && s.status != Success
  {
  }

  /** A complete form is submitted without asking, and the form comes back untouched after the report. */
  lemma CompleteFormRoundTrip(s: UiState, confirmed: bool, text: string)
    requires Inv(s) && OnLastStep(s) && s.status == Idle && Progress(s.form) == 100 && text != ""
    ensures var loading := Step(s, PressSubmit(confirmed));
      && loading.status == Loading
      && var done := Step(loading, Reply(Responded(Some(text))));
      && done.status == Success && done.content == text
      && var back := Step(done, PressBack);
      && back.status == Idle && back.form == s.form && back.step == s.step
  {
    var loading := Submit(s, confirmed).0;
    StepDispatches(s, PressSubmit(confirmed));
    var reply := Responded(Some(text));
    assert ReportText(reply) == Ok(text);
    var done := Settle(loading, reply);
    StepDispatches(loading, Reply(reply));
    StepDispatches(done, PressBack);
  }

  /** An offered submit, reply or back event runs its handler. */
  lemma StepDispatches(s: UiState, e: Event)
    requires Enabled(s, e) && (e.PressSubmit? || e.Reply? || e.PressBack?)
    ensures e.PressSubmit? ==> Step(s, e) == Submit(s, e.confirmed).0
    ensures e.Reply? ==> Step(s, e) == Settle(s, e.outcome)
    ensures e.PressBack? ==> Step(s, e) == Back(s)
  {
  }
}

=== FILE: options.dfy ===
/** Explicit absence and failure: the source's `null`/`undefined` values and thrown errors. */
module Options {

  /** A value that may be absent (`null` or `undefined` in the source). */
  datatype Option<+T> = None | Some(value: T)

  /** The outcome of an operation that may throw. */
  datatype Result<+T, +E> = Ok(value: T) | Err(error: E)
}

=== FILE: renderer.dfy ===
/**
 * The report page's line renderer: the text is split at line feeds and each line
 * becomes exactly one block, by the first of five rules that applies: a level-2
 * heading, a level-3 heading, a bold line, a bullet turned into a paragraph, or a
 * plain paragraph.
 */
module Renderer {
  import opened JsStrings

  // ---------------------------------------------------------------------------
  // `content.split('\n')`
  // ---------------------------------------------------------------------------

  predicate NoLineFeed(s: string) {
    forall i | 0 <= i < |s| :: s[i] != '\n'
  }

  /** The pieces between line feeds. */
  function SplitLines(s: string): (ls: seq<string>)
    ensures |ls| >= 1
    ensures forall i | 0 <= i < |ls| :: NoLineFeed(ls[i])
  {
    if s == [] then [""]
    else
      var rest := SplitLines(s[1..]);
      if s[0] == '\n' then [""] + rest
      else [[s[0]] + rest[0]] + rest[1..]
  }

  /** `n` line feeds give `n + 1` pieces. */
  lemma {:induction false} SplitCount(s: string)
    ensures |SplitLines(s)| == multiset(s)['\n'] + 1
  {
    if s != [] {
      SplitCount(s[1..]);
      assert s == [s[0]] + s[1..];
      assert multiset(s) == multiset{s[0]} + multiset(s[1..]);
    }
  }

  /** `lines.join('\n')`. */
  function JoinLines(ls: seq<string>): string
    requires |ls| >= 1
  {
    if |ls| == 1 then ls[0] else ls[0] + "\n" + JoinLines(ls[1..])
  }

  /** Splitting and joining again gives back the text. */
  lemma {:induction false} JoinSplit(s: string)
    ensures JoinLines(SplitLines(s)) == s
  {
    if s != [] {
      var rest := SplitLines(s[1..]);
      JoinSplit(s[1..]);
      if s[0] != '\n' {
        var ls := SplitLines(s);
        if |rest| == 1 {
          assert ls == [[s[0]] + rest[0]];
        } else {
          assert ls[1..] == rest[1..];
          assert JoinLines(rest) == rest[0] + "\n" + JoinLines(rest[1..]);
        }
      } else {
        assert SplitLines(s)[1..] == rest;
      }
    }
  }

  lemma SplitAfterLineFeed(t: string)
    ensures SplitLines("\n" + t) == [""] + SplitLines(t)
  {
    assert ("\n" + t)[1..] == t;
  }

  lemma SplitAfterChar(c: char, t: string)
    requires c != '\n'
    ensures SplitLines([c] + t) == [[c] + SplitLines(t)[0]] + SplitLines(t)[1..]
  {
    assert ([c] + t)[1..] == t;
  }

  lemma JoinFirstChar(ls: seq<string>)
    requires |ls| >= 1 && ls[0] != []
    ensures JoinLines(ls) == [ls[0][0]] + JoinLines([ls[0][1..]] + ls[1..])
  {
    var shorter := [ls[0][1..]] + ls[1..];
    assert shorter[1..] == ls[1..];
    assert ls[0] == [ls[0][0]] + ls[0][1..];
  }

  /** Joining lines that hold no line feed and splitting again gives back the lines. */
  lemma {:induction false} SplitJoin(ls: seq<string>)
    requires |ls| >= 1 && forall i | 0 <= i < |ls| :: NoLineFeed(ls[i])
    ensures SplitLines(JoinLines(ls)) == ls
    decreases |ls|, |ls[0]|
  {
    if ls[0] == [] {
      if |ls| > 1 {
        SplitJoin(ls[1..]);
        SplitAfterLineFeed(JoinLines(ls[1..]));
        assert ls == [""] + ls[1..];
      }
    } else {
      var c := ls[0][0];
      var shorter := [ls[0][1..]] + ls[1..];
      assert shorter[1..] == ls[1..];
      assert forall i | 1 <= i < |shorter| :: shorter[i] == ls[i];
      SplitJoin(shorter);
      JoinFirstChar(ls);
      SplitAfterChar(c, JoinLines(shorter));
      assert ls[0] == [c] + shorter[0];
      assert ls == [ls[0]] + ls[1..];
    }
  }

  // ---------------------------------------------------------------------------
  // `line.replace(/\*\*/g, '')`
  // ---------------------------------------------------------------------------

  /** The characters of `s` other than `*`, in order. */
  function NonStars(s: string): string {
    if s == [] then []
    else (if s[0] == '*' then [] else [s[0]]) + NonStars(s[1..])
  }

  /** Removes every `**`, scanning from the left without overlaps, as the global regular expression does. */
  function RemoveDoubleStars(s: string): (r: string)
    ensures forall i | 0 <= i < |r| - 1 :: !(r[i] == '*' && r[i + 1] == '*')
    ensures NonStars(r) == NonStars(s)
    ensures s != [] && s[0] != '*' ==> r != [] && r[0] == s[0]
  {
    if |s| >= 2 && s[0] == '*' && s[1] == '*' then
      var r := RemoveDoubleStars(s[2..]);
      assert NonStars(s) == NonStars(s[1..]) && s[1..][1..] == s[2..];
      r
    else if s == [] then []
    else
      var rest := RemoveDoubleStars(s[1..]);
      var r := [s[0]] + rest;
      assert r[1..] == rest;
      r
  }

  /** A line without `**` comes out as it went in. */
  lemma {:induction false} RemoveDoubleStarsAbsent(s: string)
    requires forall i | 0 <= i < |s| - 1 :: !(s[i] == '*' && s[i + 1] == '*')
    ensures RemoveDoubleStars(s) == s
  {
    if s != [] {
      RemoveDoubleStarsAbsent(s[1..]);
      assert [s[0]] + s[1..] == s;
    }
  }

  /** Removing `**` a second time changes nothing. */
  lemma RemoveDoubleStarsIdempotent(s: string)
    ensures RemoveDoubleStars(RemoveDoubleStars(s)) == RemoveDoubleStars(s)
  {
    RemoveDoubleStarsAbsent(RemoveDoubleStars(s));
  }

  /** `n` stars. */
  function Stars(n: nat): string {
    if n == 0 then [] else ['*'] + Stars(n - 1)
  }

  /** The length of the run of stars `s` starts with. */
  function StarRun(s: string): (k: nat)
    ensures k <= |s|
    ensures forall i | 0 <= i < k :: s[i] == '*'
    ensures k < |s| ==> s[k] != '*'
  {
    if s != [] && s[0] == '*' then 1 + StarRun(s[1..]) else 0
  }

  /**
   * An independent account of the global `**` removal: every maximal run of
   * `k` stars becomes `k % 2` stars (a lone star survives, `***` leaves one),
   * and every other character stays where it is.
   */
  function CollapseRuns(s: string): string
    decreases |s|
  {
    if s == [] then []
    else if s[0] == '*' then
      var k := StarRun(s);
      Stars(k % 2) + CollapseRuns(s[k..])
    else [s[0]] + CollapseRuns(s[1..])
  }

  lemma {:induction false} StarsPrefix(s: string, k: nat)
    requires k <= |s| && forall i | 0 <= i < k :: s[i] == '*'
    ensures s == Stars(k) + s[k..]
  {
    if k > 0 {
      StarsPrefix(s[1..], k - 1);
      assert s[1..][k - 1..] == s[k..];
    }
  }

  lemma RemovePair(t: string)
    ensures RemoveDoubleStars(['*', '*'] + t) == RemoveDoubleStars(t)
  {
    assert (['*', '*'] + t)[2..] == t;
  }

  lemma RemoveSingle(c: char, t: string)
    requires c != '*' || t == [] || t[0] != '*'
    ensures RemoveDoubleStars([c] + t) == [c] + RemoveDoubleStars(t)
  {
    assert ([c] + t)[1..] == t;
  }

  lemma StarsPair(k: nat, rest: string)
    requires k >= 2
    ensures Stars(k) + rest == ['*', '*'] + (Stars(k - 2) + rest)
  {
    assert Stars(k) == ['*', '*'] + Stars(k - 2);
  }

  /** A run of `k` stars before a character that is not a star leaves `k % 2` of them. */
  lemma {:induction false} RemoveStarRun(k: nat, rest: string)
    requires rest == [] || rest[0] != '*'
    ensures RemoveDoubleStars(Stars(k) + rest) == Stars(k % 2) + RemoveDoubleStars(rest)
  {
    if k == 0 {
      assert Stars(0) + rest == rest;
    } else if k == 1 {
      assert Stars(1) == ['*'];
      RemoveSingle('*', rest);
    } else {
      var shorter := Stars(k - 2) + rest;
      StarsPair(k, rest);
      RemovePair(shorter);
      RemoveStarRun(k - 2, rest);
      assert k % 2 == (k - 2) % 2;
    }
  }

  /** The scan from the left agrees with the run-by-run account. */
  lemma {:induction false} RemoveDoubleStarsByRuns(s: string)
    ensures RemoveDoubleStars(s) == CollapseRuns(s)
    decreases |s|
  {
    if s != [] {
      if s[0] == '*' {
        var k := StarRun(s);
        StarsPrefix(s, k);
        RemoveStarRun(k, s[k..]);
        RemoveDoubleStarsByRuns(s[k..]);
      } else {
        RemoveDoubleStarsByRuns(s[1..]);
      }
    }
  }

  // ---------------------------------------------------------------------------
  // Classifying one line
  // ---------------------------------------------------------------------------

  datatype Block =
    | Heading2(text: string)
    | Heading3(text: string)
    | Strong(text: string)
    | BulletParagraph(text: string)
    | Paragraph(text: string)

  /** `line.replace(/^[\-\*]\s+/, '')`: a leading `-` or `*` and the white space run after it, if there is one. */
  function StripBullet(line: string): (r: string)
    ensures !(|line| >= 2 && (line[0] == '-' || line[0] == '*') && IsWhitespace(line[1])) ==> r == line
    ensures |line| >= 2 && (line[0] == '-' || line[0] == '*') && IsWhitespace(line[1]) ==>
      && |r| <= |line| - 2
      && r == line[|line| - |r|..]
      && AllWhitespace(line[1..|line| - |r|])
      && (r == "" || !IsWhitespace(r[0]))
  {
    if |line| >= 2 && (line[0] == '-' || line[0] == '*') && IsWhitespace(line[1]) then
      var tail := line[1..];
      var r := TrimStart(tail);
      assert line[1..|line| - |r|] == tail[..|tail| - |r|];
      r
    else line
  }

  /** The bullet test, made on the trimmed line. */
  predicate LooksLikeBullet(line: string) {
    StartsWith(Trim(line), "- ") || StartsWith(Trim(line), "* ")
  }

  /** What each marker says about the first characters of a line. */
  lemma MarkerChars(line: string)
    ensures StartsWith(line, "## ") ==> line[0] == '#' && line[2] == ' '
    ensures StartsWith(line, "### ") ==> line[0] == '#' && line[2] == '#'
    ensures StartsWith(line, "**") ==> line[0] == '*'
  {
    if StartsWith(line, "## ") {
      assert line[..3][0] == '#' && line[..3][2] == ' ';
    }
    if StartsWith(line, "### ") {
      assert line[..4][0] == '#' && line[..4][2] == '#';
    }
    if StartsWith(line, "**") {
      assert line[..2][0] == '*';
    }
  }

  /** The block one line becomes: the first rule that applies wins. */
  function ClassifyLine(line: string): (b: Block)
    ensures b.Heading2? <==> StartsWith(line, "## ")
    ensures b.Heading2? ==> b.text == line[3..]
    ensures b.Heading3? <==> StartsWith(line, "### ")
    ensures b.Heading3? ==> b.text == line[4..]
    ensures b.Strong? <==> !StartsWith(line, "## ") && !StartsWith(line, "### ")
                           && StartsWith(line, "**") && EndsWith(line, "**")
    ensures b.Strong? ==> b.text == RemoveDoubleStars(line)
    ensures b.BulletParagraph? <==> !StartsWith(line, "## ") && !StartsWith(line, "### ")
                                    && !(StartsWith(line, "**") && EndsWith(line, "**")) && LooksLikeBullet(line)
    ensures b.BulletParagraph? ==> b.text == StripBullet(line)
    ensures b.Paragraph? ==> b.text == line
  {
    MarkerChars(line);
    if StartsWith(line, "## ") then
      ReplaceLeadingPattern(line, "## ");
      Heading2(ReplaceFirst(line, "## ", ""))
    else if StartsWith(line, "### ") then
      ReplaceLeadingPattern(line, "### ");
      Heading3(ReplaceFirst(line, "### ", ""))
    else if StartsWith(line, "**") && EndsWith(line, "**") then Strong(RemoveDoubleStars(line))
    else if LooksLikeBullet(line) then BulletParagraph(StripBullet(line))
    else Paragraph(line)
  }

  /** `SimpleMarkdownRenderer`: one block per line, in order. */
  function Render(content: string): (bs: seq<Block>)
    ensures |bs| == multiset(content)['\n'] + 1
  {
    var ls := SplitLines(content);
    SplitCount(content);
    seq(|ls|, i requires 0 <= i < |ls| => ClassifyLine(ls[i]))
  }

  // ---------------------------------------------------------------------------
  // What the rules mean for particular lines
  // ---------------------------------------------------------------------------

  /** A heading line gives its text back without the marker. */
  lemma HeadingRoundTrip(t: string)
    ensures ClassifyLine("## " + t) == Heading2(t)
    ensures ClassifyLine("### " + t) == Heading3(t)
  {
    var h2, h3 := "## " + t, "### " + t;
    assert h2[..3] == "## " && h2[3..] == t;
    assert h3[..4] == "### " && h3[4..] == t;
    MarkerChars(h3);
    assert h3[2] == '#';
  }

  /** A star-free text between `**` markers comes out bold and unchanged. */
  lemma StrongRoundTrip(t: string)
    requires forall i | 0 <= i < |t| :: t[i] != '*'
    ensures ClassifyLine("**" + t + "**") == Strong(t)
  {
    var line := "**" + t + "**";
    assert line[..2] == "**" && line[|line| - 2..] == "**";
    MarkerChars(line);
    assert line == "**" + (t + "**");
    assert RemoveDoubleStars(line) == RemoveDoubleStars(t + "**") by {
      assert line[2..] == t + "**";
    }
    StarFreeThenStars(t);
  }

  /** Removal over a star-free text followed by `**`. */
  lemma {:induction false} StarFreeThenStars(t: string)
    requires forall i | 0 <= i < |t| :: t[i] != '*'
    ensures RemoveDoubleStars(t + "**") == t
  {
    if t == [] {
      assert t + "**" == "**";
      assert RemoveDoubleStars("**") == [];
    } else {
      assert (t + "**")[1..] == t[1..] + "**";
      StarFreeThenStars(t[1..]);
      assert [t[0]] + t[1..] == t;
    }
  }

  lemma DashLineIsBullet(t: string)
    requires t != "" && !IsWhitespace(t[|t| - 1])
    ensures LooksLikeBullet("- " + t)
  {
    var line := "- " + t;
    assert line[|line| - 1] == t[|t| - 1];
    TrimUnpadded(line);
    assert line[..2] == "- ";
  }

  lemma DashLineStripped(t: string)
    requires t != "" && !IsWhitespace(t[0])
    ensures StripBullet("- " + t) == t
  {
    var line := "- " + t;
    assert line[1..] == " " + t && (" " + t)[1..] == t;
  }

  /** A bullet at the very start of the line loses its marker and the white space after it. */
  lemma BulletStripped(t: string)
    requires t != "" && !IsWhitespace(t[0]) && !IsWhitespace(t[|t| - 1])
    ensures ClassifyLine("- " + t) == BulletParagraph(t)
  {
    MarkerChars("- " + t);
    DashLineIsBullet(t);
    DashLineStripped(t);
  }

  /**
   * An indented bullet passes the trimmed test but not the anchored pattern, so
   * it is kept with its marker and its indentation.
   */
  lemma IndentedBulletVerbatim(line: string)
    requires line != "" && IsWhitespace(line[0]) && LooksLikeBullet(line)
    ensures ClassifyLine(line) == BulletParagraph(line)
  {
    MarkerChars(line);
  }

  /** Two lines joined by a line feed split back into those two lines. */
  lemma TwoLines(a: string, b: string)
    requires NoLineFeed(a) && NoLineFeed(b)
    ensures SplitLines(a + "\n" + b) == [a, b]
  {
    var ls := [a, b];
    SplitJoin(ls);
    assert ls[1..] == [b];
  }

  lemma PrefixNoLineFeed(p: string, t: string)
    requires NoLineFeed(p) && NoLineFeed(t)
    ensures NoLineFeed(p + t)
  {
    forall i | 0 <= i < |p + t|
      ensures (p + t)[i] != '\n'
    {
      if i >= |p| {
        assert (p + t)[i] == t[i - |p|];
      }
    }
  }

  /** The blocks of a two-line text are those of its two lines. */
  lemma RenderTwoLines(a: string, b: string)
    requires NoLineFeed(a) && NoLineFeed(b)
    ensures Render(a + "\n" + b) == [ClassifyLine(a), ClassifyLine(b)]
  {
    TwoLines(a, b);
  }

  /** A heading line followed by a bullet line: a heading and a stripped bullet paragraph. */
  lemma RenderHeadingThenBullet(t: string, u: string)
    requires NoLineFeed(t) && NoLineFeed(u)
    requires u != "" && !IsWhitespace(u[0]) && !IsWhitespace(u[|u| - 1])
    ensures Render("## " + t + "\n" + "- " + u) == [Heading2(t), BulletParagraph(u)]
  {
    var a, b := "## " + t, "- " + u;
    PrefixNoLineFeed("## ", t);
    PrefixNoLineFeed("- ", u);
    assert "## " + t + "\n" + "- " + u == a + "\n" + b;
    RenderTwoLines(a, b);
    HeadingRoundTrip(t);
    BulletStripped(u);
  }

  /** An empty report is one empty paragraph. */
  lemma RenderEmpty()
    ensures Render("") == [Paragraph("")]
  {
    MarkerChars("");
  }
}

=== FILE: report.dfy ===
/**
 * The report service's pure parts: the structured data it sends along with the
 * prompt (`promptData`), and how the service's reply becomes the report text or
 * the single failure message. The prompt prose, its JSON serialisation and the
 * call itself are not modelled; the reply is an input.
 */
module Report {
  import opened Options
  import opened Types

  /** `instituicao`. */
  const Institution: string := "CEC - Centro de Educação e Cultura"

  /** One entry of `itens`: a rating item's or a text item's shape. */
  datatype PayloadItem =
    | RatedEntry(pergunta: string, nota: Option<int>, nivel: Option<string>, comentarioJustificativa: string)
    | AnsweredEntry(pergunta: string, resposta: string)

  /** One entry of `avaliacoes`. */
  datatype SectionEntry = SectionEntry(secao: string, itens: seq<PayloadItem>)

  datatype Payload = Payload(
    instituicao: string,
    auxiliar: string,
    data: string,
    alunoTranstorno: string,
    avaliacoes: seq<SectionEntry>)

  /** Every rated entry carries the label of its own rating, and none when the rating has none. */
  predicate LabelsMatch(p: Payload) {
    forall i, j | 0 <= i < |p.avaliacoes| && 0 <= j < |p.avaliacoes[i].itens| ::
      p.avaliacoes[i].itens[j].RatedEntry? ==> p.avaliacoes[i].itens[j].nivel == LabelOf(p.avaliacoes[i].itens[j].nota)
  }

  /** The entries of one section, item by item; rating items look their label up on the scale. */
  function EntriesOf(items: SectionItems): (es: seq<PayloadItem>)
    ensures |es| == match items case RatingItems(rs) => |rs| case TextItems(ts) => |ts|
    ensures forall k | 0 <= k < |es| :: es[k].RatedEntry? <==> items.RatingItems?
    ensures forall k | 0 <= k < |es| && es[k].RatedEntry? :: es[k].nivel == LabelOf(es[k].nota)
  {
    match items
    case RatingItems(rs) =>
      seq(|rs|, k requires 0 <= k < |rs| =>
        RatedEntry(rs[k].question, rs[k].rating, LabelOf(rs[k].rating), rs[k].comment))
    case TextItems(ts) =>
      seq(|ts|, k requires 0 <= k < |ts| => AnsweredEntry(ts[k].question, ts[k].answer))
  }

  /** `promptData` in `generatePerformanceReport`. */
  function BuildPayload(f: FormData): (p: Payload)
    ensures p.instituicao == Institution
    ensures p.auxiliar == f.personalInfo.name && p.data == f.personalInfo.date
    ensures p.alunoTranstorno == f.personalInfo.studentDisorder
    ensures |p.avaliacoes| == |f.sections|
    ensures forall i | 0 <= i < |f.sections| ::
      p.avaliacoes[i].secao == f.sections[i].title && |p.avaliacoes[i].itens| == f.sections[i].Size()
    ensures forall i, j | 0 <= i < |f.sections| && 0 <= j < |p.avaliacoes[i].itens| ::
      p.avaliacoes[i].itens[j].RatedEntry? <==> f.sections[i].items.RatingItems?
    ensures LabelsMatch(p)
  {
    var ss := f.sections;
    Payload(
      Institution,
      f.personalInfo.name,
      f.personalInfo.date,
      f.personalInfo.studentDisorder,
      seq(|ss|, i requires 0 <= i < |ss| => SectionEntry(ss[i].title, EntriesOf(ss[i].items))))
  }

  // ---------------------------------------------------------------------------
  // The payload carries every answer
  // ---------------------------------------------------------------------------

  /**
   * `g` is the same questionnaire as `f`, answered differently: same sections,
   * kinds, items, questions and hints; only the personal fields, ratings,
   * comments and answers may differ.
   */
  predicate SameQuestionnaire(f: FormData, g: FormData) {
    && |g.sections| == |f.sections|
    && forall i | 0 <= i < |f.sections| :: SameSection(f.sections[i], g.sections[i])
  }

  predicate SameSection(s: Section, t: Section) {
    && t.id == s.id && t.title == s.title && t.description == s.description
    && match (s.items, t.items)
       case (RatingItems(xs), RatingItems(ys)) =>
         |ys| == |xs| && forall k | 0 <= k < |xs| ::
           ys[k].id == xs[k].id && ys[k].question == xs[k].question && ys[k].commentPlaceholder == xs[k].commentPlaceholder
       case (TextItems(xs), TextItems(ys)) =>
         |ys| == |xs| && forall k | 0 <= k < |xs| ::
           ys[k].id == xs[k].id && ys[k].question == xs[k].question
           && ys[k].description == xs[k].description && ys[k].inputType == xs[k].inputType
       case _ => false
  }

  /** Writes the questions and answers a section entry carries back into a section's items; entries of the wrong shape are skipped. */
  function RestoreItems(items: SectionItems, es: seq<PayloadItem>): SectionItems {
    match items
    case RatingItems(rs) =>
      RatingItems(seq(|rs|, k requires 0 <= k < |rs| =>
        if k < |es| && es[k].RatedEntry? then rs[k].(question := es[k].pergunta, rating := es[k].nota, comment := es[k].comentarioJustificativa)
        else rs[k]))
    case TextItems(ts) =>
      TextItems(seq(|ts|, k requires 0 <= k < |ts| =>
        if k < |es| && es[k].AnsweredEntry? then ts[k].(question := es[k].pergunta, answer := es[k].resposta)
        else ts[k]))
  }

  /** Fills a questionnaire with the personal data and answers a payload carries. */
  function Restore(template: FormData, p: Payload): FormData {
    var ss := template.sections;
    FormData(
      PersonalInfo(p.auxiliar, p.data, p.alunoTranstorno),
      seq(|ss|, i requires 0 <= i < |ss| =>
        if i < |p.avaliacoes| then ss[i].(items := RestoreItems(ss[i].items, p.avaliacoes[i].itens))
        else ss[i]))
  }

  lemma RestoreSection(s: Section, t: Section)
    requires SameSection(s, t)
    ensures t.(items := RestoreItems(t.items, EntriesOf(s.items))) == s
  {
    var es := EntriesOf(s.items);
    match (s.items, t.items) {
      case (RatingItems(xs), RatingItems(ys)) =>
        var zs := RestoreItems(t.items, es).ratings;
        assert |zs| == |xs|;
        forall k | 0 <= k < |xs|
          ensures zs[k] == xs[k]
        {
          assert es[k].RatedEntry?;
        }
        assert zs == xs;
      case (TextItems(xs), TextItems(ys)) =>
        var zs := RestoreItems(t.items, es).texts;
        assert |zs| == |xs|;
        forall k | 0 <= k < |xs|
          ensures zs[k] == xs[k]
        {
          assert es[k].AnsweredEntry?;
        }
        assert zs == xs;
    }
  }

  /**
   * Nothing the user entered is lost: filling any copy of the questionnaire
   * with the payload gives back the form it was built from.
   */
  lemma PayloadRoundTrip(f: FormData, g: FormData)
    requires SameQuestionnaire(f, g)
    ensures Restore(g, BuildPayload(f)) == f
  {
    var p := BuildPayload(f);
    var r := Restore(g, p);
    assert |r.sections| == |f.sections|;
    forall i | 0 <= i < |f.sections|
      ensures r.sections[i] == f.sections[i]
    {
      RestoreSection(f.sections[i], g.sections[i]);
    }
  }

  // ---------------------------------------------------------------------------
  // The service's reply
  // ---------------------------------------------------------------------------

  /** The reply's `text` (absent or present), or the failure the call raised. */
  datatype ServiceOutcome = Responded(text: Option<string>) | Failed(cause: string)

  /** What replaces an empty reply. */
  const Fallback: string := "Não foi possível gerar o relatório."

  /** The one error every failure is reported as. */
  const FailureMessage: string := "Falha ao gerar o relatório. Verifique sua conexão ou tente novamente."

  /** `response.text || fallback`, or the uniform error when the call fails. */
  function ReportText(o: ServiceOutcome): (r: Result<string, string>)
    ensures r.Err? <==> o.Failed?
    ensures r.Err? ==> r.error == FailureMessage
    ensures r.Ok? ==> r.value != ""
    ensures r.Ok? && r.value != Fallback ==> o.text == Some(r.value)
  {
    match o
    case Failed(_) => Err(FailureMessage)
    case Responded(t) =>
      if t.Some? && t.value != "" then Ok(t.value) else Ok(Fallback)
  }

  /** A non-empty reply passes through untouched; a missing or empty one becomes the fallback. */
  lemma ReplyPassesThrough(t: Option<string>)
    ensures t.Some? && t.value != "" ==> ReportText(Responded(t)) == Ok(t.value)
    ensures t.None? || t.value == "" ==> ReportText(Responded(t)) == Ok(Fallback)
  {
  }

  /** Failures are indistinguishable to the caller, whatever their cause. */
  lemma FailuresUniform(a: string, b: string)
    ensures ReportText(Failed(a)) == ReportText(Failed(b))
  {
  }
}

=== FILE: rounding.dfy ===
/**
 * `Math.round((a / t) * 100)`, the percentage both the global progress bar and the
 * section header compute, taken over exact rationals: the integer nearest to
 * 100·a/t, with halves rounded up (Math.round rounds halves towards +∞).
 */
module Rounding {

  /** The rounded percentage of `a` out of `t`. */
  function RoundPercent(a: nat, t: nat): (r: int)
    requires t > 0
    ensures 2 * t * r <= 200 * a + t < 2 * t * (r + 1)
  {
    (200 * a + t) / (2 * t)
  }

  /** Multiplying by a non-negative factor keeps order. */
  lemma MulMonotone(m: int, x: int, y: int)
    requires m >= 0 && x <= y
    ensures m * x <= m * y
  {
    assert m * y - m * x == m * (y - x);
  }

  /** The percentage of a part lies between 0 and 100. */
  lemma PercentBounds(a: nat, t: nat)
    requires 0 < t && a <= t
    ensures 0 <= RoundPercent(a, t) <= 100
  {
    var r := RoundPercent(a, t);
    if r < 0 {
      MulMonotone(2 * t, r + 1, 0);
    }
    if r > 100 {
      MulMonotone(2 * t, 101, r);
      MulMonotone(200, a, t);
    }
  }

  /** Below 200 parts, 100% is shown exactly when every part is there. */
  lemma PercentFullIff(a: nat, t: nat)
    requires 0 < t < 200 && a <= t
    ensures RoundPercent(a, t) == 100 <==> a == t
  {
    var r := RoundPercent(a, t);
    if a == t {
      if r < 100 {
        MulMonotone(2 * t, r + 1, 100);
      }
      if r > 100 {
        MulMonotone(2 * t, 101, r);
      }
    } else {
      MulMonotone(200, a, t - 1);
      if r >= 100 {
        MulMonotone(2 * t, 100, r);
      }
    }
  }

  /** The whole is 100%. */
  lemma PercentOfWhole(t: nat)
    requires t > 0
    ensures RoundPercent(t, t) == 100
  {
    var r := RoundPercent(t, t);
    if r < 100 {
      MulMonotone(2 * t, r + 1, 100);
    }
    if r > 100 {
      MulMonotone(2 * t, 101, r);
    }
  }

  /** From 200 parts on, one missing part can still round to 100%. */
  lemma NearlyCompleteRoundsToFull()
    ensures RoundPercent(199, 200) == 100
  {
  }
}

=== FILE: types.dfy ===
/**
 * The form state of the questionnaire: personal information plus an ordered list
 * of sections, each holding either rating items or text items, and the fixed
 * 1–5 rating scale.
 */
module Types {
  import opened Options

  /** The optional `inputType` of a text item. */
  datatype InputType = TextInput | NumberInput

  /** A question answered on the 1–5 scale, with a free comment. */
  datatype RatingItem = RatingItem(
    id: string,
    question: string,
    rating: Option<int>,
    comment: string,
    commentPlaceholder: Option<string>)

  /** A question answered in free text, or with a number when `inputType` is `number`. */
  datatype TextItem = TextItem(
    id: string,
    question: string,
    description: Option<string>,
    answer: string,
    inputType: Option<InputType>)

  /**
   * The items of a section. Which case it is plays the part of the section's
   * declared `type`, so every item is read according to that type.
   */
  datatype SectionItems = RatingItems(ratings: seq<RatingItem>) | TextItems(texts: seq<TextItem>)

  datatype Section = Section(id: string, title: string, description: string, items: SectionItems) {

    /** The number of items, `items.length`. */
    function Size(): nat {
      match items
      case RatingItems(rs) => |rs|
      case TextItems(ts) => |ts|
    }

    /** The item ids, in order. */
    function ItemIds(): (ids: seq<string>)
      ensures |ids| == Size()
    {
      match items
      case RatingItems(rs) => seq(|rs|, k requires 0 <= k < |rs| => rs[k].id)
      case TextItems(ts) => seq(|ts|, k requires 0 <= k < |ts| => ts[k].id)
    }
  }

  datatype PersonalInfo = PersonalInfo(name: string, date: string, studentDisorder: string)

  datatype FormData = FormData(personalInfo: PersonalInfo, sections: seq<Section>)

  /** One step of the rating scale. */
  datatype ScaleEntry = ScaleEntry(value: int, labelText: string, desc: string)

  const RatingScale: seq<ScaleEntry> := [
    ScaleEntry(1, "Precisa de Melhoria Significativa", "Requer atenção imediata e suporte."),
    ScaleEntry(2, "Precisa de Melhoria", "Há potencial, mas ajustes são necessários."),
    ScaleEntry(3, "Adequado", "Desempenho satisfatório, com espaço para refinamento."),
    ScaleEntry(4, "Bom", "Eficaz e consistente, com bons resultados."),
    ScaleEntry(5, "Excepcional", "Alta proficiência, com impacto positivo notável.")
  ]

  /** A rating the scale knows. */
  predicate OnScale(v: int) {
    1 <= v <= 5
  }

  /** The scale lists 1, 2, 3, 4, 5 in ascending order, each once. */
  lemma ScaleIsOneToFive()
    ensures |RatingScale| == 5
    ensures forall i | 0 <= i < |RatingScale| :: RatingScale[i].value == i + 1
    ensures forall i, j | 0 <= i < j < |RatingScale| :: RatingScale[i].value < RatingScale[j].value
  {
  }

  /** The first entry of `entries` whose value is `v`, like `Array.prototype.find`. */
  function FindEntry(entries: seq<ScaleEntry>, v: int): (r: Option<ScaleEntry>)
    ensures r.Some? <==> exists i | 0 <= i < |entries| :: entries[i].value == v
    ensures r.Some? ==> r.value.value == v
    ensures r.Some? ==> exists i | 0 <= i < |entries| ::
              (entries[i] == r.value && forall j | 0 <= j < i :: entries[j].value != v)
  {
    if entries == [] then None
    else if entries[0].value == v then Some(entries[0])
    else
      var r := FindEntry(entries[1..], v);
      assert forall i | 0 <= i < |entries| - 1 :: entries[1..][i] == entries[i + 1];
      r
  }

  /**
   * `RATING_SCALE.find(r => r.value === rating)`: a `null` rating, or a number
   * off the scale, finds nothing.
   */
  function ScaleEntryOf(rating: Option<int>): (r: Option<ScaleEntry>)
    ensures r.Some? <==> rating.Some? && OnScale(rating.value)
    ensures r.Some? ==> r.value == RatingScale[rating.value - 1]
  {
    match rating
    case None => None
    case Some(v) =>
      ScaleIsOneToFive();
      FindEntry(RatingScale, v)
  }

  /** The label of a rating, `ratingInfo?.label`. */
  function LabelOf(rating: Option<int>): (r: Option<string>)
    ensures r.Some? <==> rating.Some? && OnScale(rating.value)
    ensures r.Some? ==> r.value == RatingScale[rating.value - 1].labelText
  {
    match ScaleEntryOf(rating)
    case None => None
    case Some(e) => Some(e.labelText)
  }

  /** All item ids of the form, section after section. */
  function FormItemIds(sections: seq<Section>): seq<string> {
    if sections == [] then [] else sections[0].ItemIds() + FormItemIds(sections[1..])
  }

  /** No value occurs twice. */
  predicate Distinct(xs: seq<string>) {
    forall i, j | 0 <= i < j < |xs| :: xs[i] != xs[j]
  }
}

=== FILE: widgets.dfy ===
/**
 * The arithmetic and choice logic of two form widgets: the rating buttons
 * (which value each button emits, which button shows as selected, which caption
 * is shown under them) and the section header's percentage and completeness flag.
 */
module Widgets {
  import opened Options
  import opened Rounding
  import opened Types
  import opened FormRules

  // ---------------------------------------------------------------------------
  // `RatingInput`
  // ---------------------------------------------------------------------------

  /** The value the button drawn for scale entry `button` passes to `onChange`. */
  function EmittedValue(button: int): (v: int)
    requires 0 <= button < |RatingScale|
    ensures OnScale(v)
  {
    RatingScale[button].value
  }

  /** The buttons emit exactly the values of the scale, 1 to 5. */
  lemma EmittedValuesAreTheScale(v: int)
    ensures (exists b | 0 <= b < |RatingScale| :: EmittedValue(b) == v) <==> OnScale(v)
  {
    if OnScale(v) {
      assert EmittedValue(v - 1) == v;
    }
  }

  /** `isSelected`: the widget's value is this button's value. */
  predicate IsSelected(value: Option<int>, button: int)
    requires 0 <= button < |RatingScale|
  {
    value == Some(RatingScale[button].value)
  }

  /**
   * The buttons drawn as selected: none for `null` or an off-scale value, and
   * exactly the value's own button otherwise.
   */
  function SelectedButtons(value: Option<int>): (bs: set<int>)
    ensures !(value.Some? && OnScale(value.value)) ==> bs == {}
    ensures value.Some? && OnScale(value.value) ==> bs == {value.value - 1}
  {
    ScaleIsOneToFive();
    var bs := set b | 0 <= b < |RatingScale| && IsSelected(value, b);
    assert value.Some? && OnScale(value.value) ==> value.value - 1 in bs;
    bs
  }

  /** At most one button is ever selected. */
  lemma AtMostOneSelected(value: Option<int>)
    ensures |SelectedButtons(value)| <= 1
  {
  }

  /** What the line under the buttons shows. */
  datatype Caption = ScaleLabel(text: string) | NoCaption | Placeholder

  /**
   * A truthy value shows its scale label (nothing when the value is off the
   * scale); `null` and `0` show the "select a rating" placeholder.
   */
  function CaptionOf(value: Option<int>): (c: Caption)
    ensures c.Placeholder? <==> !RatingTruthy(value)
    ensures c.ScaleLabel? <==> value.Some? && OnScale(value.value)
    ensures c.ScaleLabel? ==> c.text == RatingScale[value.value - 1].labelText
  {
    if RatingTruthy(value) then
      match LabelOf(value)
      case Some(l) => ScaleLabel(l)
      case None => NoCaption
    else Placeholder
  }

  // ---------------------------------------------------------------------------
  // `SectionHeader`
  // ---------------------------------------------------------------------------

  /**
   * `Math.round((completed / total) * 100)`; `None` stands for the `NaN` that
   * an empty section (0 / 0) produces. JavaScript would give `Infinity` for a
   * positive `completed` over 0, but section statistics never have
   * `completed > total` (`GetSectionStats`), so that case does not arise.
   */
  function SectionPercent(completed: nat, total: nat): (p: Option<int>)
    ensures p.None? <==> total == 0
    ensures p.Some? ==> 2 * total * p.value <= 200 * completed + total < 2 * total * (p.value + 1)
    ensures p.Some? && completed <= total ==> 0 <= p.value <= 100
  {
    if total == 0 then None
    else
      if completed <= total then PercentBounds(completed, total); Some(RoundPercent(completed, total))
      else Some(RoundPercent(completed, total))
  }

  /** `isComplete`: the percentage is exactly 100 (`NaN === 100` is false). */
  predicate IsComplete(completed: nat, total: nat) {
    SectionPercent(completed, total) == Some(100)
  }

  /** Below 200 items the header is complete exactly when every item is completed. */
  lemma CompleteIffAll(completed: nat, total: nat)
    requires completed <= total < 200
    ensures IsComplete(completed, total) <==> 0 < total && completed == total
  {
    if total > 0 {
      PercentFullIff(completed, total);
    }
  }

  /**
   * For a section without zero ratings and with fewer than 200 items, the
   * header's check mark shows exactly when every item counts for progress; an
   * empty section never shows it.
   */
  lemma HeaderCompleteIffCounted(s: Section)
    requires NoZeroRatings(s) && s.Size() < 200
    ensures var st := GetSectionStats(s);
      IsComplete(st.completed, st.total) <==> 0 < s.Size() && SectionCounted(s)
  {
    var st := GetSectionStats(s);
    StatsMatchProgress(s);
    CompleteIffAll(st.completed, st.total);
  }
}
